=== FILE: README.md ===
# csi-justmount in Dafny

csi-justmount is a Container Storage Interface (CSI) plugin. It mounts an
arbitrary filesystem source, named in the volume context, with a plain
mount(2) call. This project models the node side of the volume lifecycle
and the controller-side validators:

- **NodeStageVolume** validates the request in a fixed order and resolves
  the filesystem type and the octal file mode. It creates the staging
  directory, and succeeds at once if the staging path is already a mount
  point. Otherwise it turns the `mountOptions` string into mount(2) flags
  plus pass-through data and calls mount(2). If that fails with "no such
  device", it falls back to the external `mount -t <fsType>` helper. It
  classifies any other failure, and finally applies the file mode.
- **NodeUnstageVolume** unmounts the staging path.
- **NodePublishVolume** bind-mounts the staging path onto the target path,
  but only after one check that the staging path is mounted.
- **NodeUnpublishVolume** unmounts the target path and then removes it.
- **IsMountPoint** answers from the Linux mount table
  (`/proc/self/mountinfo`, proc(5)). It reads the fifth field before the
  ` - ` separator and decodes the kernel's octal escapes. Only when the table
  cannot be read does it compare the device ids of the path and its parent.
- **ControllerPublishVolume, ControllerUnpublishVolume,
  ValidateVolumeCapabilities, GetPluginInfo and NewController** are pure
  guard clauses and constant identity.

How the model is built:

- The host is a class `Mounter.Host`: the mounted set, the existing
  directories with their modes, and a log of every call made. It follows
  the fake mounter of the end-to-end test: Mount adds the target, Unmount
  deletes it, and IsMountPoint is a lookup.
- Whether a host call fails is an input, a `Faults` record with one entry
  per kind of call.
- Each node handler is a method of `NodeService.Node` that makes the calls
  one by one, with early returns. It is proved to return exactly the
  outcome of a pure function (`Stage.StageSteps`, `Stage.UnstageSteps`,
  `Publish.PublishSteps`, `Publish.UnpublishSteps`). That outcome is the
  response, the calls in order, and the host left behind. The properties
  are then proved about those functions.
- The Go library functions the code relies on are defined from their
  documented behaviour. Contracts and lemmas state what they promise:
  - `strings`: TrimSpace, Fields, Split, Join, Index, Contains and ToLower;
  - `path/filepath`: Clean and Dir, under the Unix lexical rules;
  - `strconv.ParseUint(s, 8, 32)`.
- The mount-flag word is a set of flags. `Syscall.Bits` gives the
  `uintptr` the kernel receives.

Four facts of the code that the model keeps:

- publish checks the staging mount once, with no retry
  (pkg/node/publish.go:41-48);
- unpublish returns Internal without calling RemoveAll when the unmount
  fails (pkg/node/publish.go:73-79);
- the fallback runs `mount` with `-t fsType` (pkg/node/stage.go:180-185);
- stage asks the mounted check once and does not retry it
  (pkg/node/stage.go:74-77).

## Model

| member | source | states |
|---|---|---|
| NodeService.Node.NodeStageVolume | pkg/node/stage.go:19-148 | Returns exactly `StageSteps`' response. It makes exactly its host calls, in order, and leaves the host in its after-state. |
| NodeService.Node.StageOnHost | pkg/node/stage.go:67-77 | For a valid request: MkdirAll(staging, 0755), the mounted check, the short-circuit on "mounted with no error", then the mount part. The result, calls and new host state equal `StageEffects`. |
| NodeService.Node.MountOnHost | pkg/node/stage.go:111-148 | mount(2), the helper only after a no-such-device error, the three Internal failure kinds, then Chmod. The result, calls and new host state equal `MountSteps`. |
| NodeService.Node.NodeUnstageVolume | pkg/node/stage.go:151-170 | Result, calls and new host state equal `UnstageSteps`. |
| NodeService.Node.NodePublishVolume | pkg/node/publish.go:14-59 | Result, calls and new host state equal `PublishSteps`. |
| NodeService.Node.NodeUnpublishVolume | pkg/node/publish.go:61-84 | Result, calls and new host state equal `UnpublishSteps`. |
| NodeService.Node.NewNodeWithMounter | pkg/node/node.go:35-41 | The node keeps the given node id, endpoint and mounter. |
| Stage.ResolveFsType | pkg/node/stage.go:35-45 | The capability's mount fsType when it is non-empty, otherwise the context's `fsType` entry ("" when absent). |
| Stage.CheckStageRequest | pkg/node/stage.go:20-65 | Every rejection is InvalidArgument. On success the volume id, capability, staging path, fsType, `fileMode` (valid 32-bit octal) and `source` are present and non-empty, and the parameters are exactly the resolved values; the options are the trimmed `mountOptions`. |
| Stage.StageRejections | pkg/node/stage.go:20-65 | The guard order: volume id, staging path, capability, fsType, missing fileMode, unparsable fileMode, missing or empty source. Each gives InvalidArgument with its own reason. |
| Stage.ParsePieces | pkg/node/stage.go:84-107 | The option loop: the flags are those named by the trimmed, non-empty pieces and the data tokens are the other pieces except `rw`, in order. |
| Stage.ParseMountOptions | pkg/node/stage.go:80-109 | Flags and joined data are those of the trimmed option string's tokens; the empty string gives no flags and no data. |
| Stage.TokensWellFormed | pkg/node/stage.go:84-88 | Every token is non-empty, has no white space at either end and holds no comma. |
| Stage.OptionTokensWellFormed | pkg/node/stage.go:83-88 | The same for the tokens of any option string. |
| Stage.FlagSetIffNamed | pkg/node/stage.go:89-103 | A flag is in the set if and only if its option name is among the tokens. |
| Stage.NoBindFromOptions | pkg/node/stage.go:89-106 | No option sets MS_BIND. |
| Stage.OptionBits | pkg/node/stage.go:89-103 | In the flag word, the bit of ro, nosuid, nodev, noexec, noatime or relatime is set if and only if that name is a token. No bit outside those six is ever set. |
| Stage.PassThroughMembers | pkg/node/stage.go:92-105 | A token is passed through if and only if it is not `rw` or a flag name. |
| Stage.PassThroughAppend | pkg/node/stage.go:104-105 | Pass-through keeps the tokens' order: it distributes over concatenation. |
| Stage.DataRoundTrip | pkg/node/stage.go:109 | Splitting the joined data on commas gives back exactly the pass-through tokens; no tokens give "". |
| Stage.HelperArgv | pkg/node/stage.go:179-184 | The argument vector of a recorded helper call: mount(8) reads back the call's type, source and target, and its raw option string exactly when that string is not blank. |
| Stage.MountHelperArgs | pkg/node/stage.go:179-184 | The vector built is the one the recorded `HelperCall` with the same fields stands for (`HelperArgv`). It starts `-t fsType`, and mount(8) reads back the type, source and target, and the raw option string exactly when it is not blank. |
| Stage.StageHelperArgv | pkg/node/stage.go:113-116 | The helper a stage runs gets the request's type and source, the staging path as target, and the option string exactly when it is not blank. |
| Stage.NoSuchDeviceExamples | pkg/node/stage_fallback_test.go:44 | An ENODEV error is "no such device"; a plain "boom" is not (pkg/node/stage_fallback_test.go:81). |
| Stage.IsNoSuchDevice | pkg/node/stage.go:172-177 | ENODEV, or a message containing "no such device" in any case. |
| Stage.IsPermissionError | pkg/node/stage.go:198-204 | EPERM or EACCES, or a message containing "permission denied" or "operation not permitted" in any case. |
| Stage.ClassifyMountError | pkg/node/stage.go:113-139 | NoSuchDevice if and only if `isNoSuchDevice`. PermissionDenied if and only if not that and `isPermissionError`. Otherwise OtherMountError, so the device check wins. |
| Stage.ChmodSteps | pkg/node/stage.go:142-148 | Chmod(staging, mode) is appended. The result is an error if and only if the chmod fails, and then it is Internal. Mounts are untouched. |
| Stage.MountSteps | pkg/node/stage.go:111-148 | The mount part as a function: Mount, the helper after a no-such-device error, the three Internal failures, then Chmod; the calls made and the host left behind. |
| Stage.StageEffects | pkg/node/stage.go:67-148 | The host part of a valid stage as a function: MkdirAll, the mounted check, its short-circuit, then the mount part. |
| Stage.StageSteps | pkg/node/stage.go:19-65 | An invalid request gives its validation error with no host call and no state change. |
| Stage.StageValidReachesHost | pkg/node/stage.go:67-71 | A valid request always calls MkdirAll(staging, 0755) first. If that fails: Internal, no other call, host unchanged. |
| Stage.StageShortCircuit | pkg/node/stage.go:73-77 | mount(2) is called if and only if the check did not report the path mounted (a failing check does not count). Otherwise: success after exactly two calls, with no Mount, helper or Chmod. |
| Stage.StageMountCall | pkg/node/stage.go:112 | The third call is Mount(source, staging, fsType, flags, data). |
| Stage.HelperIffNoSuchDevice | pkg/node/stage.go:113-127 | The helper runs if and only if mount(2) failed with a no-such-device error. It then receives (fsType, source, staging, trimmed raw option string). |
| Stage.MountFailureIsInternal | pkg/node/stage.go:113-139 | A failed helper, a permission error or any other mount error gives Internal with that reason, and no Chmod. |
| Stage.ChmodOnlyAfterMount | pkg/node/stage.go:142-148 | Chmod to the parsed mode is the last call, right after a successful Mount or helper. Past that point the stage succeeds if and only if the chmod does. |
| Stage.MountStepsReplay | pkg/node/stage.go:112-145 | The host the mount part leaves is the one its calls produce. |
| Stage.StageReplays | pkg/node/stage.go:67-148 | The host a stage leaves is the one its call log produces. |
| Stage.StageMountsStaging | pkg/node/stage.go:112-148 | After a successful stage the staging path is mounted and every other mount is unchanged. A stage that mounted leaves the staging directory with the requested file mode, re-applied after the mount as stage.go:142-145 does (and as pkg/node/stage_test.go:164-170 checks). The already-mounted short-circuit makes no Chmod call, so it does not re-apply the mode; on an existing directory it leaves the host exactly as it was. |
| Stage.UnstageSteps | pkg/node/stage.go:151-170 | Empty volume id, then empty staging path: InvalidArgument with no call. Otherwise exactly one Unmount(staging, 0) with no mounted check; failure gives Internal. |
| Stage.UnstageUnmounts | pkg/node/stage.go:162-169 | The after-state is the replay of the calls. A successful unstage removes exactly the staging path from the mounted set. |
| Publish.PublishSteps | pkg/node/publish.go:14-59 | NodePublishVolume as a function of request, host and faults: response, calls in order, host left behind. |
| Publish.UnpublishSteps | pkg/node/publish.go:61-84 | NodeUnpublishVolume as a function of request, host and faults: response, calls in order, host left behind. |
| Publish.PublishRejections | pkg/node/publish.go:15-33 | Volume id, target path, capability, staging path in that order, each InvalidArgument. No host call happens if and only if the request is invalid. |
| Publish.PublishChecksStagingOnce | pkg/node/publish.go:35-48 | MkdirAll(target) comes first, then exactly one mounted check of the staging path and no second one. A failing check gives Internal; an unmounted staging path gives FailedPrecondition. Neither tries a bind mount. |
| Publish.PublishSucceeds | pkg/node/publish.go:35-58 | Success if and only if the request is valid, MkdirAll succeeds, the staging path is mounted and the bind mount succeeds. A failed MkdirAll(target) is Internal after that single call, with the host unchanged; a failed bind mount is Internal. The only mount ever made is Mount(staging, target, "", MS_BIND, ""), and its flag word is exactly MS_BIND. |
| Publish.PublishMountsTarget | pkg/node/publish.go:35-58 | The after-state is the replay of the calls. After a success the target is mounted, every other mount is unchanged and the target directory exists. |
| Publish.UnpublishOrder | pkg/node/publish.go:61-84 | Empty volume id, then empty target: InvalidArgument with no call. Otherwise Unmount(target, 0) comes first. If it fails: Internal, no RemoveAll, host unchanged. RemoveAll runs only after a successful unmount, and its failure is Internal. |
| Publish.UnpublishUnmountsTarget | pkg/node/publish.go:72-83 | The after-state is the replay of the calls. After a success the target is no longer mounted and every other mount is unchanged. The target and everything beneath it are gone; other directories are untouched. "Beneath" compares the cleaned paths, so a target written with a trailing slash, or "/", still loses its children. |
| MountInfo.IsMountPoint | pkg/util/util.go:11-31 | When the table is readable, its answer for the cleaned path. Otherwise: a stat error of the path, then of its parent, is returned; else whether their device ids differ. |
| MountInfo.IsMountPointFromMountInfo | pkg/util/util.go:35-58 | A read error is passed on. Otherwise the answer is true if and only if some line names the path. |
| MountInfo.BeforeSeparator | pkg/util/util.go:44 | The text before the first " - " (the whole line when there is none), a prefix of the line. |
| MountInfo.Unescape | pkg/util/util.go:60-69 | Never longer than its input. |
| MountInfo.UnescapeEscape | pkg/util/util.go:60-69 | Decoding undoes the kernel's octal escaping of space, tab, newline and backslash (proc(5)): every path survives the round trip. |
| MountInfo.UnescapePlain | pkg/util/util.go:60-69 | Text without a backslash is unchanged. |
| MountInfo.UnescapeSinglePass | pkg/util/util.go:62-68 | One left-to-right pass: `\134040` decodes to a backslash and `040`, not a space. |
| MountInfo.UnescapeSpaceAfter | pkg/util/util.go:63 | Backslash-free text followed by `\040` decodes to that text and a space. |
| MountInfo.EscapedSpaceExample | pkg/util/util_test.go:13 | `globalmount\040with\040space` decodes to `globalmount with space`. |
| MountInfo.Escape | pkg/util/util.go:60-69 | The kernel-side encoder, the partner of Unescape: no space, tab or newline remains in the encoded field. Other white space runes are written as they are. |
| MountInfo.EscapeNoSpace | pkg/util/util.go:60-69 | When the only white space in a path is space, tab or newline, its encoding has no white space at all, and a non-empty path has a non-empty encoding. |
| MountInfo.EscapeUnmangled | pkg/util/util.go:60-69 | A path without space, tab, newline or backslash is written unchanged. |
| MountInfo.CarriageReturnSplitsField | pkg/util/util.go:48 | The kernel writes "a\rb" unchanged, but strings.Fields cuts it into "a" and "b". So a mount point that holds a white space rune other than space, tab or newline reaches the scan cut in two. |
| MountInfo.AfterSeparatorIgnored | pkg/util/util.go:44-52 | What follows the first " - " (filesystem type, source, super options) never changes the mount point a line names. |
| MountInfo.FifthFieldBridge | pkg/util/util.go:48-52 | A line the kernel writes with single blanks, whose fifth field is the encoding of a path, yields that many fields. Its fifth field decodes back to the path, provided the path's only white space is space, tab or newline. |
| MountInfo.LineMountPoint | pkg/util/util.go:41-53 | The loop body: None for a blank line or one with fewer than five fields before the separator, otherwise the cleaned, decoded fifth field. |
| MountInfo.Names | pkg/util/util.go:40-57 | Some line of the table names the path; the reference the scan is proved against. |
| MountInfo.CleanQueryInvariant | pkg/util/util.go:12-13 | Cleaning an already cleaned query does not change the table's answer. |
| MountInfo.NamesSnoc | pkg/util/util.go:40-57 | A table with one more line names the path exactly when the shorter table or the new line does. |
| MountInfo.NamesAppend | pkg/util/util.go:40-57 | A table split in two names the path if and only if one of its parts does. |
| MountInfo.NamesOrderFree | pkg/util/util.go:40-57 | The answer does not depend on the order of the lines. |
| ControllerService.NewController | pkg/controller/controller.go:29-36 | Name "justmount.csi.driver", version "0.0.1"; the endpoint and test flag are kept. |
| ControllerService.GetPluginInfo | pkg/controller/controller.go:98-103 | Succeeds with the controller's name and version. |
| ControllerService.PluginIdentity | pkg/controller/controller.go:29-36 | A new controller reports "justmount.csi.driver" at "0.0.1", whatever its endpoint. |
| ControllerService.ControllerPublishVolume | pkg/controller/publish.go:11-30 | Success if and only if the node id, the volume id and the capability are all present. Otherwise InvalidArgument, for the node id first, then the volume id, then the capability. |
| ControllerService.ControllerUnpublishVolume | pkg/controller/publish.go:32-39 | Success if and only if the volume id is non-empty; otherwise InvalidArgument. |
| ControllerService.UnpublishIgnoresNode | pkg/controller/publish.go:32-39 | The node id never changes the answer. |
| ControllerService.ValidateVolumeCapabilities | pkg/controller/controller.go:124-144 | Success if and only if the volume id and the capability list are non-empty, checked in that order. The confirmed list is exactly the requested list. |
| Mounter.Step | sanity_test.go:153-163 | A failed call changes nothing. Only Mount, the helper and Unmount change the mounted set. |
| Mounter.Probe | pkg/node/mounter.go:11 | The mounted check reports mounted if and only if it did not fail and the path is in the mounted set. |
| Mounter.Host.constructor | sanity_test.go:149-151 | A host in the given state with an empty call log. |
| Mounter.Host.MkdirAll | pkg/node/stage.go:69 | Returns the injected error, logs the call and applies `Step`. |
| Mounter.Host.IsMountPoint | sanity_test.go:161-163 | The answer is a lookup unless the check fails; logs the call; state unchanged. |
| Mounter.Host.Mount | sanity_test.go:153-156 | Returns the injected error, logs the call and applies `Step`: the target is mounted after a success. |
| Mounter.Host.MountHelper | pkg/node/stage.go:179-193 | The helper: returns the injected error, logs the call, and mounts the target after a success. |
| Mounter.Host.Chmod | pkg/node/stage.go:143 | Returns the injected error, logs the call and applies `Step`. |
| Mounter.Host.Unmount | sanity_test.go:157-160 | Returns the injected error, logs the call and applies `Step`: the target is unmounted after a success. |
| Mounter.Host.RemoveAll | pkg/node/publish.go:79 | Returns the injected error, logs the call and applies `Step`: the path and everything beneath it are removed, compared after filepath.Clean. |
| Mounter.WithinCleanRoot | pkg/node/publish.go:79 | A removal root and its cleaned form hold the same directories. |
| Mounter.WithinSlash | pkg/node/publish.go:79 | Every rooted path lies beneath "/". |
| Mounter.WithinTrailingSlash | pkg/node/publish.go:79 | "/t/x" and "/t" lie beneath "/t/": a trailing slash does not hide a directory's children. |
| Lifecycle.StageRequestMounts | pkg/node/stage.go:19-148 | A successful stage request mounts the staging path and nothing else. |
| Lifecycle.PublishAfterStage | pkg/node/publish.go:40-55 | Once staged, a valid publish from that staging path succeeds when no host call fails. |
| Lifecycle.LifecycleRestoresMounts | pkg/node/publish.go:14-84 | NodePublishVolume and NodeUnpublishVolume, composed with NodeStageVolume and NodeUnstageVolume (pkg/node/stage.go:19-170). A successful stage, publish, unpublish and unstage on unmounted paths leaves the mounted set as it was. The target is mounted after publish and not after unpublish. |
| GoStrings.TrimLeft | pkg/node/stage.go:85 | A suffix of the input that does not start with white space. |
| GoStrings.TrimLeftDropsSpace | pkg/node/stage.go:85 | Everything TrimLeft drops is white space. |
| GoStrings.TrimRight | pkg/node/stage.go:85 | A prefix of the input that does not end with white space. |
| GoStrings.TrimRightDropsSpace | pkg/node/stage.go:85 | Everything TrimRight drops is white space. |
| GoStrings.TrimSpace | pkg/node/stage.go:85 | Never longer than the input, and neither starts nor ends with white space. |
| GoStrings.TrimSpaceSlice | pkg/node/stage.go:85 | TrimSpace removes only the white space at the ends: the result is a contiguous slice of the input with only white space before and after it. |
| GoStrings.TrimSpaceUnchanged | pkg/node/stage.go:85 | A string without white space at its ends trims to itself. |
| GoStrings.TrimSpaceEmpty | pkg/util/util.go:41 | A line trims to "" if and only if it is all white space. |
| GoStrings.TrimSpaceKeepsOut | pkg/node/stage.go:85 | Trimming introduces no rune; a comma-free piece stays comma-free. |
| GoStrings.Fields | pkg/util/util.go:48 | strings.Fields: the maximal runs of non-space runes, in order. |
| GoStrings.FieldsWellFormed | pkg/util/util.go:48 | Every field is non-empty and holds no white space. |
| GoStrings.FieldsSqueeze | pkg/util/util.go:48 | Only white space is dropped: the fields, one after another, spell the input with its white space removed. |
| GoStrings.FieldsJoin | pkg/util/util.go:48 | The partner of Fields: fields that are non-empty and free of white space, joined with a white-space separator, split back into exactly those fields. |
| GoStrings.Join | pkg/node/stage.go:109 | strings.Join with a one-rune separator; `JoinSplit` and `SplitJoin` are its partners. |
| GoStrings.Split | pkg/node/stage.go:84 | At least one piece. |
| GoStrings.SplitPiecesAvoid | pkg/node/stage.go:84 | No piece holds the separator. |
| GoStrings.JoinSplit | pkg/node/stage.go:109 | Joining the pieces of a split restores the string. |
| GoStrings.SplitJoin | pkg/node/stage.go:109 | Splitting a join of separator-free parts restores the parts. |
| GoStrings.Index | pkg/util/util.go:44 | The first occurrence, or -1 when there is none. |
| GoStrings.ContainsMeansOccurs | pkg/node/stage.go:176 | Contains if and only if the needle occurs somewhere. |
| GoStrings.ToLower | pkg/node/stage.go:176 | Rune-wise lowering that keeps the length. |
| FilePath.Clean | pkg/util/util.go:12 | Never empty. |
| FilePath.CleanKeepsRoot | pkg/util/util.go:12 | The result is rooted if and only if the input is. |
| FilePath.CleanIdempotent | pkg/util/util.go:53 | Cleaning a cleaned path changes nothing. |
| FilePath.ReduceIsNormal | pkg/util/util.go:12 | Lexical reduction leaves no empty, `.` or dangling `..` elements. |
| FilePath.Dir | pkg/util/util.go:23 | Never empty; "." for a path without a separator. |
| StrConv.ParseOctal32 | pkg/node/stage.go:55-58 | Succeeds if and only if the input is a non-empty run of octal digits whose value fits in 32 bits, and then yields that value. |
| StrConv.FormatOctal | pkg/node/stage.go:55 | A non-empty run of octal digits. |
| StrConv.FormatOctalValue | pkg/node/stage.go:55 | Formatting then reading back the digits gives the value. |
| StrConv.ParseFormatRoundTrip | pkg/node/stage.go:55 | Every 32-bit mode written in octal parses back to itself. |
| StrConv.StageTestModes | pkg/node/stage_test.go:75 | "0755" parses to 493; "" (line 75) and "invalid" (line 94) are rejected. |
| Syscall.BitsIff | pkg/node/stage.go:91 | A flag's bit is set in the word if and only if the flag is in the set. |
| Syscall.BitsOnlyFlags | pkg/node/publish.go:51 | The word holds no bit besides its flags', and no MS_BIND unless BIND is in the set. |

## Left out

- gRPC servers, sockets and process plumbing are not modelled (Run/Stop of node and controller, `pkg/driver`, `main.go`), and neither are logging or random request ids. They are transport and diagnostics, not behaviour.
- The raw syscall wrappers (`SyscallMounter`, `NewNode`) are not modelled. The model works against the `Mounter` interface, with the semantics of the test's fake mounter.
- The helper process (`exec.Command`, output capture, "not found in PATH") is not modelled. Only its argument vector and its success or failure are.
- Status messages are modelled as `Reason` tags. The formatted text, with its wrapped error strings, is not.
- stat(2) is not modelled. `MountInfo.IsMountPoint` takes it as a function parameter from path to device id or error. Reading the mountinfo file is likewise an input (its contents or a read error).
- The mounted-set semantics of the fake mounter are not linked to the mountinfo parser. The node handlers see `IsMountPoint` as a lookup in the mounted set.
- `Mounter.Step`, `Mounter.Host.RemoveAll`: a failed RemoveAll changes nothing. os.RemoveAll removes what it can before it returns its first error, so after the Internal error of pkg/node/publish.go:79-81 part of the target tree may already be gone. The model does not capture that partial removal. No lemma about a failed unpublish relies on the directories. "Beneath" is lexical, after filepath.Clean of both paths: symbolic links are not followed.
- `MountInfo.LineMountPoint`: follows the code's strings.Fields, which splits on all Unicode white space, while the kernel escapes only space, tab, newline and backslash. A mount point holding another white space rune (for instance '\r' or U+00A0) is therefore read cut short, as `MountInfo.CarriageReturnSplitsField` shows. `MountInfo.FifthFieldBridge` is stated only for paths without such runes.
- `Mounter.Host.MkdirAll`: records only the path itself as a new directory, not its missing parents. No handler depends on the parents.
- `os.FileMode` is modelled as the parsed number (a `nat` at most 2^32-1), with no type or permission bits split out.
- `GoStrings.ToLower`: maps only the runes whose lower case is ASCII (A-Z, U+0130, U+212A). Other runes are kept, which suffices for the ASCII needles the error checks search for.
- Strings are sequences of runes. UTF-8 decoding and invalid byte sequences are not modelled.
- The `len(parts) < 1` test in the mount-table scan (pkg/util/util.go:45) is not modelled. `strings.SplitN` never returns fewer than one piece, so it cannot fire.
- The model parses the mount options before MkdirAll, though the code parses them after the mounted check. The parse is pure and cannot fail, so the calls and the result are the same.
- The Node's gRPC `server` field and the embedded unimplemented servers are not modelled.
- The controller's other RPCs (CreateVolume, DeleteVolume, capabilities, Probe) and the node stubs are not modelled. They return constants or Unimplemented.
- Concurrency is not modelled: requests are handled one at a time, and there is no locking in the code.
- The full mountinfo line of the table test is not modelled as an example, only its escaped mount-point field (`MountInfo.EscapedSpaceExample`).

=== FILE: controller.dfy ===
/**
 * The controller service (pkg/controller): plugin identity and the
 * request validation of ControllerPublishVolume, ControllerUnpublishVolume
 * and ValidateVolumeCapabilities. None of them touches any state; each is
 * a function of its request.
 */
module ControllerService {
  import opened Wrappers
  import opened Csi

  /** The controller's identity and endpoint, fixed when it is created. */
  datatype Controller = Controller(name: string, version: string, endpoint: string, test: bool)

  const DriverName := "justmount.csi.driver"
  const DriverVersion := "0.0.1"

  /** NewController: the driver name and version are constants; endpoint and test flag are kept. */
  function NewController(endpoint: string, test: bool): (c: Controller)
    ensures c.name == DriverName && c.version == DriverVersion
    ensures c.endpoint == endpoint && c.test == test
  {
    Controller(DriverName, DriverVersion, endpoint, test)
  }

  /** GetPluginInfo: the controller's name and version. */
  function GetPluginInfo(c: Controller): (r: Response<GetPluginInfoResponse>)
    ensures r.Ok? && r.value.name == c.name && r.value.vendorVersion == c.version
  {
    Ok(GetPluginInfoResponse(c.name, c.version))
  }

  /** Whatever endpoint it serves, a new controller reports "justmount.csi.driver" at version "0.0.1". */
  lemma PluginIdentity(endpoint: string, test: bool)
    ensures GetPluginInfo(NewController(endpoint, test)) == Ok(GetPluginInfoResponse("justmount.csi.driver", "0.0.1"))
  {
  }

  /** ControllerPublishVolume: node id, then volume id, then capability; nothing else is checked. */
  function ControllerPublishVolume(req: ControllerPublishVolumeRequest): (r: Response<ControllerPublishVolumeResponse>)
    ensures r.Ok? <==> req.nodeId != "" && req.volumeId != "" && req.volumeCapability.Some?
    ensures r.Err? ==> r.error.code == InvalidArgument
    ensures req.nodeId == "" ==> r == Err(Status(InvalidArgument, NodeIdRequired))
    ensures req.nodeId != "" && req.volumeId == "" ==> r == Err(Status(InvalidArgument, VolumeIdRequired))
    ensures req.nodeId != "" && req.volumeId != "" && req.volumeCapability.None? ==>
              r == Err(Status(InvalidArgument, VolumeCapabilityRequired))
  {
    if req.nodeId == "" then Err(Status(InvalidArgument, NodeIdRequired))
    else if req.volumeId == "" then Err(Status(InvalidArgument, VolumeIdRequired))
    else if req.volumeCapability.None? then Err(Status(InvalidArgument, VolumeCapabilityRequired))
    else Ok(ControllerPublishVolumeResponse)
  }

  /** ControllerUnpublishVolume: only the volume id is required; the node id is not looked at. */
  function ControllerUnpublishVolume(req: ControllerUnpublishVolumeRequest): (r: Response<ControllerUnpublishVolumeResponse>)
    ensures r.Ok? <==> req.volumeId != ""
    ensures r.Err? ==> r.error == Status(InvalidArgument, VolumeIdRequired)
  {
    if req.volumeId == "" then Err(Status(InvalidArgument, VolumeIdRequired))
    else Ok(ControllerUnpublishVolumeResponse)
  }

  /** The node id of an unpublish request never changes the answer. */
  lemma UnpublishIgnoresNode(req: ControllerUnpublishVolumeRequest, node: string)
    ensures ControllerUnpublishVolume(req.(nodeId := node)) == ControllerUnpublishVolume(req)
  {
  }

  /**
   * ValidateVolumeCapabilities: volume id, then a non-empty capability
   * list; every requested capability is confirmed, in order.
   */
  function ValidateVolumeCapabilities(req: ValidateVolumeCapabilitiesRequest): (r: Response<ValidateVolumeCapabilitiesResponse>)
    ensures r.Ok? <==> req.volumeId != "" && |req.volumeCapabilities| > 0
    ensures req.volumeId == "" ==> r == Err(Status(InvalidArgument, VolumeIdRequired))
    ensures req.volumeId != "" && req.volumeCapabilities == [] ==>
              r == Err(Status(InvalidArgument, VolumeCapabilitiesRequired))
    ensures r.Ok? ==> r.value.confirmed.volumeCapabilities == req.volumeCapabilities
  {
    if |req.volumeId| == 0 then Err(Status(InvalidArgument, VolumeIdRequired))
    else if |req.volumeCapabilities| == 0 then Err(Status(InvalidArgument, VolumeCapabilitiesRequired))
    else Ok(ValidateVolumeCapabilitiesResponse(Confirmed(req.volumeCapabilities)))
  }
}

=== FILE: csi.dfy ===
/**
 * The slice of the Container Storage Interface messages and gRPC status
 * codes the node and controller handlers read and produce.
 */
module Csi {
  import opened Wrappers

  datatype MountVolume = MountVolume(fsType: string, mountFlags: seq<string>)

  /** The `access_type` oneof: unset, block, or mount (whose message may itself be absent). */
  datatype AccessType = Unset | Block | Mount(volume: Option<MountVolume>)

  datatype VolumeCapability = VolumeCapability(accessType: AccessType, accessMode: nat)

  /** VolumeCapability.GetMount(): the mount message, or nil for any other access type. */
  function GetMount(c: VolumeCapability): Option<MountVolume> {
    match c.accessType
    case Mount(v) => v
    case _ => None
  }

  /** Indexing a Go map: the zero value "" for an absent key. */
  function Lookup(m: map<string, string>, key: string): string {
    if key in m then m[key] else ""
  }

  datatype NodeStageVolumeRequest = NodeStageVolumeRequest(
    volumeId: string,
    stagingTargetPath: string,
    volumeCapability: Option<VolumeCapability>,
    volumeContext: map<string, string>)

  datatype NodeUnstageVolumeRequest = NodeUnstageVolumeRequest(
    volumeId: string,
    stagingTargetPath: string)

  datatype NodePublishVolumeRequest = NodePublishVolumeRequest(
    volumeId: string,
    stagingTargetPath: string,
    targetPath: string,
    volumeCapability: Option<VolumeCapability>)

  datatype NodeUnpublishVolumeRequest = NodeUnpublishVolumeRequest(
    volumeId: string,
    targetPath: string)

  datatype ControllerPublishVolumeRequest = ControllerPublishVolumeRequest(
    volumeId: string,
    nodeId: string,
    volumeCapability: Option<VolumeCapability>)

  datatype ControllerUnpublishVolumeRequest = ControllerUnpublishVolumeRequest(
    volumeId: string,
    nodeId: string)

  datatype ValidateVolumeCapabilitiesRequest = ValidateVolumeCapabilitiesRequest(
    volumeId: string,
    volumeCapabilities: seq<VolumeCapability>)

  datatype NodeStageVolumeResponse = NodeStageVolumeResponse
  datatype NodeUnstageVolumeResponse = NodeUnstageVolumeResponse
  datatype NodePublishVolumeResponse = NodePublishVolumeResponse
  datatype NodeUnpublishVolumeResponse = NodeUnpublishVolumeResponse
  datatype ControllerPublishVolumeResponse = ControllerPublishVolumeResponse
  datatype ControllerUnpublishVolumeResponse = ControllerUnpublishVolumeResponse
  datatype Confirmed = Confirmed(volumeCapabilities: seq<VolumeCapability>)
  datatype ValidateVolumeCapabilitiesResponse = ValidateVolumeCapabilitiesResponse(confirmed: Confirmed)
  datatype GetPluginInfoResponse = GetPluginInfoResponse(name: string, vendorVersion: string)

  /** The gRPC codes the handlers return. */
  datatype Code = InvalidArgument | FailedPrecondition | Internal

  /** Which check failed, as the status message says: one tag per missing field or failed step. */
  datatype Reason =
    | VolumeIdRequired
    | StagingTargetPathRequired
    | TargetPathRequired
    | VolumeCapabilityRequired
    | FsTypeRequired
    | FileModeRequired
    | InvalidFileMode
    | SourceRequired
    | CreateStagingPathFailed
    | MountHelperFailed
    | MountPermissionDenied
    | MountFailed
    | SetFileModeFailed
    | UnmountStagingFailed
    | CreateTargetPathFailed
    | CheckStagingMountFailed
    | StagingNotMounted
    | BindMountFailed
    | UnmountTargetFailed
    | RemoveTargetFailed
    | NodeIdRequired
    | VolumeCapabilitiesRequired

  datatype Status = Status(code: Code, reason: Reason)

  type Response<T> = Result<T, Status>
}

=== FILE: filepath.dfy ===
/**
 * Go's path/filepath.Clean and filepath.Dir on a Unix host ('/' separator,
 * empty volume name): purely lexical path reduction.
 */
module FilePath {
  import opened GoStrings

  /** A path element sequence Clean can produce: no empty, "." or '/'-holding
      element, ".." only as a leading run, and none at all under a root. */
  predicate Normal(elems: seq<string>, rooted: bool) {
    && (forall i :: 0 <= i < |elems| ==> elems[i] != "" && elems[i] != "." && '/' !in elems[i])
    && (forall i :: 0 <= i < |elems| ==> rooted ==> elems[i] != "..")
    && (forall i, j :: 0 <= i < j < |elems| && elems[j] == ".." ==> elems[i] == "..")
  }

  /** One element of the reduction: "" and "." vanish, ".." removes the last
      real element, is dropped at a root, and is kept otherwise. */
  function Push(stack: seq<string>, elem: string, rooted: bool): seq<string> {
    if elem == "" || elem == "." then stack
    else if elem == ".." then
      if |stack| > 0 && stack[|stack| - 1] != ".." then stack[..|stack| - 1]
      else if rooted then stack
      else stack + [".."]
    else stack + [elem]
  }

  function Reduce(elems: seq<string>, rooted: bool): seq<string>
  {
    if elems == [] then []
    else Push(Reduce(elems[..|elems| - 1], rooted), elems[|elems| - 1], rooted)
  }

  /** Reducing '/'-free elements yields a normal element sequence. */
  lemma {:induction false} ReduceIsNormal(elems: seq<string>, rooted: bool)
    requires forall i :: 0 <= i < |elems| ==> '/' !in elems[i]
    ensures Normal(Reduce(elems, rooted), rooted)
  {
    if elems != [] {
      var init := Reduce(elems[..|elems| - 1], rooted);
      ReduceIsNormal(elems[..|elems| - 1], rooted);
      var r := Push(init, elems[|elems| - 1], rooted);
      assert forall i :: 0 <= i < |r| ==> r[i] in init || r[i] == elems[|elems| - 1] || r[i] == "..";
    }
  }

  /** filepath.Clean: the shortest path lexically equivalent to `p`. */
  function Clean(p: string): (r: string)
    ensures r != ""
  {
    if p == "" then "."
    else
      var rooted := p[0] == '/';
      var body := Join(Reduce(Split(p, '/'), rooted), '/');
      if rooted then "/" + body else if body == "" then "." else body
  }

  /** Cleaning keeps a path rooted exactly when it was rooted. */
  lemma CleanKeepsRoot(p: string)
    ensures Clean(p)[0] == '/' <==> (p != "" && p[0] == '/')
  {
    if p != "" {
      var elems := Reduce(Split(p, '/'), p[0] == '/');
      SplitPiecesAvoid(p, '/');
      ReduceIsNormal(Split(p, '/'), p[0] == '/');
      JoinHead(elems);
    }
  }

  lemma JoinHead(elems: seq<string>)
    requires forall i :: 0 <= i < |elems| ==> elems[i] != "" && '/' !in elems[i]
    ensures Join(elems, '/') == "" <==> elems == []
    ensures elems != [] ==> Join(elems, '/')[0] == elems[0][0]
  {
    if |elems| > 1 {
      assert Join(elems, '/') == elems[0] + ['/'] + Join(elems[1..], '/');
    }
  }

  /** The index of the last '/' in `p`, or -1. */
  function LastSlash(p: string): (i: int)
    ensures -1 <= i < |p|
    ensures i >= 0 ==> p[i] == '/'
    ensures forall j :: i < j < |p| ==> p[j] != '/'
  {
    if p == [] then -1
    else if p[|p| - 1] == '/' then |p| - 1
    else LastSlash(p[..|p| - 1])
  }

  /** filepath.Dir: everything up to the last separator, cleaned. */
  function Dir(p: string): (r: string)
    ensures r != ""
    ensures '/' !in p ==> r == "."
  {
    Clean(p[..LastSlash(p) + 1])
  }

  lemma {:induction false} ReduceNormal(elems: seq<string>, rooted: bool)
    requires Normal(elems, rooted)
    ensures Reduce(elems, rooted) == elems
  {
    if elems != [] {
      var init := elems[..|elems| - 1];
      assert Normal(init, rooted);
      ReduceNormal(init, rooted);
      var last := elems[|elems| - 1];
      if last == ".." && |init| > 0 {
        assert init[|init| - 1] == "..";
      }
      assert init + [last] == elems;
    }
  }

  lemma {:induction false} ReduceSkipsLeadingEmpty(elems: seq<string>, rooted: bool)
    requires forall i :: 0 <= i < |elems| ==> '/' !in elems[i]
    ensures Reduce([""] + elems, rooted) == Reduce(elems, rooted)
  {
    if elems != [] {
      var all := [""] + elems;
      assert all[..|all| - 1] == [""] + elems[..|elems| - 1];
      ReduceSkipsLeadingEmpty(elems[..|elems| - 1], rooted);
    } else {
      assert ([""] + elems)[..0] == [];
    }
  }

  /** Cleaning a clean path changes nothing. */
  lemma CleanIdempotent(p: string)
    ensures Clean(Clean(p)) == Clean(p)
  {
    if p != "" {
      var rooted := p[0] == '/';
      var elems := Reduce(Split(p, '/'), rooted);
      var body := Join(elems, '/');
      SplitPiecesAvoid(p, '/');
      ReduceIsNormal(Split(p, '/'), rooted);
      JoinHead(elems);
      if elems != [] {
        SplitJoin(elems, '/');
      }
      ReduceNormal(elems, rooted);
      if rooted {
        var r := "/" + body;
        assert r[1..] == body;
        assert Split(r, '/') == [""] + Split(body, '/');
        if elems == [] {
          assert Split(body, '/') == [""];
          assert Reduce([""], true) == Reduce([], true) by { ReduceSkipsLeadingEmpty([], true); }
          assert Reduce([""] + [""], true) == Reduce([""], true) by { ReduceSkipsLeadingEmpty([""], true); }
        } else {
          ReduceSkipsLeadingEmpty(elems, true);
        }
        assert Clean(r) == r;
      } else if body == "" {
        var dot := ".";
        assert dot[0] == '.' && dot[1..] == "" && Split("", '/') == [""];
        assert Split(dot, '/') == [[dot[0]] + Split("", '/')[0]] + Split("", '/')[1..];
        assert [dot[0]] + "" == dot && [""][1..] == [];
        assert Reduce(["."], false) == Push(Reduce([], false), ".", false);
        assert Clean(dot) == dot;
      } else {
        assert body[0] != '/';
        assert Clean(body) == body;
      }
    }
  }
}

=== FILE: gostrings.dfy ===
/**
 * The part of Go's `strings` package the mount-table parser and the option
 * tokenizer rely on: TrimSpace, Fields, Split, Join, Index, Contains and the
 * lower-casing used for case-insensitive message matching. Strings are
 * sequences of runes (Go decodes UTF-8 before classifying white space).
 */
module GoStrings {

  /**
   * unicode.IsSpace: in Latin-1, '\t' through '\r', ' ', U+0085 and U+00A0;
   * above it, the other White_Space runes.
   */
  predicate IsSpace(c: char) {
    if c <= '\U{FF}' then
      c == ' ' || ('\t' <= c <= '\r') || c == '\U{85}' || c == '\U{A0}'
    else
      || c == '\U{1680}' || ('\U{2000}' <= c <= '\U{200A}')
      || c == '\U{2028}' || c == '\U{2029}' || c == '\U{202F}' || c == '\U{205F}' || c == '\U{3000}'
  }

  predicate NoSpace(s: string) {
    forall i :: 0 <= i < |s| ==> !IsSpace(s[i])
  }

  predicate AllSpace(s: string) {
    forall i :: 0 <= i < |s| ==> IsSpace(s[i])
  }

  /** Drops the leading white space; what remains is a suffix of `s`. */
  function TrimLeft(s: string): (r: string)
    ensures |r| <= |s| && r == s[|s| - |r|..]
    ensures r == [] || !IsSpace(r[0])
  {
    if s != [] && IsSpace(s[0]) then TrimLeft(s[1..]) else s
  }

  /** Drops the trailing white space; what remains is a prefix of `s`. */
  function TrimRight(s: string): (r: string)
    ensures |r| <= |s| && r == s[..|r|]
    ensures r == [] || !IsSpace(r[|r| - 1])
  {
    if s != [] && IsSpace(s[|s| - 1]) then TrimRight(s[..|s| - 1]) else s
  }

  /** TrimLeft drops only white space. */
  lemma {:induction false} TrimLeftDropsSpace(s: string)
    ensures AllSpace(s[..|s| - |TrimLeft(s)|])
  {
    if s != [] && IsSpace(s[0]) {
      var r := TrimLeft(s[1..]);
      TrimLeftDropsSpace(s[1..]);
      forall i | 0 <= i < |s| - |r| ensures IsSpace(s[i]) {
        if i > 0 { assert s[i] == s[1..][..|s| - 1 - |r|][i - 1]; }
      }
    }
  }

  /** TrimRight drops only white space. */
  lemma {:induction false} TrimRightDropsSpace(s: string)
    ensures AllSpace(s[|TrimRight(s)|..])
  {
    if s != [] && IsSpace(s[|s| - 1]) {
      var r := TrimRight(s[..|s| - 1]);
      TrimRightDropsSpace(s[..|s| - 1]);
      forall i | |r| <= i < |s| ensures IsSpace(s[i]) {
        if i < |s| - 1 { assert s[i] == s[..|s| - 1][|r|..][i - |r|]; }
      }
    }
  }

  /** strings.TrimSpace: the white space at both ends dropped (see TrimSpaceSlice). */
  function TrimSpace(s: string): (r: string)
    ensures |r| <= |s|
    ensures r == [] || (!IsSpace(r[0]) && !IsSpace(r[|r| - 1]))
  {
    TrimRight(TrimLeft(s))
  }

  /**
   * TrimSpace removes white space at the ends and nothing else: its result
   * is a contiguous slice of `s` with only white space before and after it.
   */
  lemma TrimSpaceSlice(s: string)
    ensures var r := TrimSpace(s);
      exists i :: 0 <= i <= |s| - |r| && r == s[i..i + |r|] && AllSpace(s[..i]) && AllSpace(s[i + |r|..])
  {
    var l := TrimLeft(s);
    var r := TrimRight(l);
    var i := |s| - |l|;
    TrimLeftDropsSpace(s);
    TrimRightDropsSpace(l);
    assert r == s[i..i + |r|] && s[i + |r|..] == l[|r|..];
  }

  /** A string with no white space at either end trims to itself. */
  lemma TrimSpaceUnchanged(s: string)
    requires s != [] && !IsSpace(s[0]) && !IsSpace(s[|s| - 1])
    ensures TrimSpace(s) == s
  {
    assert TrimLeft(s) == s;
  }

  lemma {:induction false} TrimLeftEmpty(s: string)
    ensures TrimLeft(s) == [] <==> AllSpace(s)
  {
    if s == [] {
    } else if IsSpace(s[0]) {
      assert TrimLeft(s) == TrimLeft(s[1..]);
      TrimLeftEmpty(s[1..]);
      if AllSpace(s[1..]) {
        forall i | 0 <= i < |s| ensures IsSpace(s[i]) {
          if i > 0 { assert s[i] == s[1..][i - 1]; }
        }
      } else {
        var i :| 0 <= i < |s[1..]| && !IsSpace(s[1..][i]);
        assert s[i + 1] == s[1..][i];
      }
    } else {
      assert TrimLeft(s) == s;
    }
  }

  lemma {:induction false} TrimRightEmpty(s: string)
    ensures TrimRight(s) == [] <==> AllSpace(s)
  {
    if s == [] {
    } else if IsSpace(s[|s| - 1]) {
      var init := s[..|s| - 1];
      assert TrimRight(s) == TrimRight(init);
      TrimRightEmpty(init);
      if AllSpace(init) {
        forall i | 0 <= i < |s| ensures IsSpace(s[i]) {
          if i < |s| - 1 { assert s[i] == init[i]; }
        }
      } else {
        var i :| 0 <= i < |init| && !IsSpace(init[i]);
        assert s[i] == init[i];
      }
    } else {
      assert TrimRight(s) == s;
    }
  }

  /** A string trims to nothing exactly when it is all white space. */
  lemma TrimSpaceEmpty(s: string)
    ensures TrimSpace(s) == [] <==> AllSpace(s)
  {
    var l := TrimLeft(s);
    TrimLeftEmpty(s);
    TrimRightEmpty(l);
  }

  /** Trimming only removes runes: a rune absent from `s` is absent from the result. */
  lemma TrimSpaceKeepsOut(s: string, c: char)
    requires c !in s
    ensures c !in TrimSpace(s)
  {
    var l := TrimLeft(s);
    assert TrimSpace(s) == s[|s| - |l|..][..|TrimRight(l)|];
  }

  /** The longest prefix of `s` without white space. */
  function Word(s: string): (w: string)
    ensures |w| <= |s| && w == s[..|w|] && NoSpace(w)
    ensures |w| == |s| || IsSpace(s[|w|])
  {
    if s == [] || IsSpace(s[0]) then [] else [s[0]] + Word(s[1..])
  }

  /** strings.Fields: the maximal runs of non-space runes, in order. */
  function Fields(s: string): (r: seq<string>)
    decreases |s|
  {
    var t := TrimLeft(s);
    if t == [] then []
    else
      var w := Word(t);
      [w] + Fields(t[|w|..])
  }

  /** One step of Fields: skip the leading white space, take one word. */
  lemma FieldsStep(s: string)
    ensures var t := TrimLeft(s);
      && (t == [] ==> Fields(s) == [])
      && (t != [] ==> Word(t) != [] && Fields(s) == [Word(t)] + Fields(t[|Word(t)|..]))
  {
  }

  /** Each string is a non-empty run of runes without white space. */
  predicate Words(ws: seq<string>) {
    ws == [] || (ws[0] != [] && NoSpace(ws[0]) && Words(ws[1..]))
  }

  /** Words, stated string by string. */
  lemma {:induction false} WordsEach(ws: seq<string>)
    ensures Words(ws) <==> forall i :: 0 <= i < |ws| ==> ws[i] != [] && NoSpace(ws[i])
  {
    if ws != [] {
      var tail := ws[1..];
      WordsEach(tail);
      assert forall i :: 0 < i < |ws| ==> ws[i] == tail[i - 1];
    }
  }

  /** Every field is a non-empty run of runes without white space. */
  lemma {:induction false} FieldsWellFormed(s: string)
    ensures Words(Fields(s))
    decreases |s|
  {
    var t := TrimLeft(s);
    FieldsStep(s);
    if t != [] {
      var w := Word(t);
      FieldsWellFormed(t[|w|..]);
      assert ([w] + Fields(t[|w|..]))[1..] == Fields(t[|w|..]);
    }
  }

  /** `s` with its white space removed. */
  function Squeeze(s: string): (r: string)
    ensures NoSpace(r)
  {
    if s == [] then []
    else if IsSpace(s[0]) then Squeeze(s[1..])
    else [s[0]] + Squeeze(s[1..])
  }

  /** The fields one after another. */
  function Concat(ws: seq<string>): string {
    if ws == [] then [] else ws[0] + Concat(ws[1..])
  }

  lemma {:induction false} SqueezeTrimLeft(s: string)
    ensures Squeeze(TrimLeft(s)) == Squeeze(s)
  {
    if s != [] && IsSpace(s[0]) {
      SqueezeTrimLeft(s[1..]);
    }
  }

  lemma {:induction false} SqueezeWord(t: string)
    ensures Squeeze(t) == Word(t) + Squeeze(t[|Word(t)|..])
  {
    if t != [] && !IsSpace(t[0]) {
      SqueezeWord(t[1..]);
      assert t[1..][|Word(t[1..])|..] == t[|Word(t)|..];
    }
  }

  /**
   * Nothing but white space is lost: the fields, in order, spell out `s`
   * with its white space removed.
   */
  lemma {:induction false} FieldsSqueeze(s: string)
    ensures Concat(Fields(s)) == Squeeze(s)
    decreases |s|
  {
    var t := TrimLeft(s);
    SqueezeTrimLeft(s);
    if t != [] {
      var w := Word(t);
      var rest := Fields(t[|w|..]);
      FieldsSqueeze(t[|w|..]);
      SqueezeWord(t);
      assert Fields(s) == [w] + rest;
      assert ([w] + rest)[1..] == rest;
    }
  }

  lemma {:induction false} WordOf(w: string, rest: string)
    requires NoSpace(w)
    requires rest == [] || IsSpace(rest[0])
    ensures Word(w + rest) == w
  {
    if w != [] {
      assert (w + rest)[1..] == w[1..] + rest;
      WordOf(w[1..], rest);
    } else {
      assert w + rest == rest;
    }
  }

  /** Leading white space does not change the fields. */
  lemma FieldsSkipSpace(c: char, x: string)
    requires IsSpace(c)
    ensures Fields([c] + x) == Fields(x)
  {
    assert ([c] + x)[1..] == x;
  }

  lemma ConsTail(ws: seq<string>)
    requires ws != []
    ensures ws == [ws[0]] + ws[1..]
  {
  }

  /** The first field of a line that starts with a word `w` ended by a blank or by the end. */
  lemma FieldsFirstWord(w: string, rest: string)
    requires w != [] && NoSpace(w)
    requires rest == [] || IsSpace(rest[0])
    ensures Fields(w + rest) == [w] + Fields(rest)
  {
    var line := w + rest;
    assert TrimLeft(line) == line by { assert line[0] == w[0]; }
    WordOf(w, rest);
    FieldsStep(line);
    assert line[|w|..] == rest;
  }

  /** A single word is a single field. */
  lemma FieldsOneWord(w: string)
    requires w != [] && NoSpace(w)
    ensures Fields(w) == [w]
  {
    FieldsFirstWord(w, []);
    FieldsStep([]);
    assert w + [] == w;
  }

  /** One more word in front of a joined line is one more field in front. */
  lemma FieldsJoinCons(w: string, tail: seq<string>, sep: char)
    requires IsSpace(sep) && w != [] && NoSpace(w) && tail != []
    ensures Fields(Join([w] + tail, sep)) == [w] + Fields(Join(tail, sep))
  {
    var j := Join(tail, sep);
    assert ([w] + tail)[1..] == tail;
    assert Join([w] + tail, sep) == w + ([sep] + j);
    FieldsFirstWord(w, [sep] + j);
    FieldsSkipSpace(sep, j);
  }

  /**
   * Fields undoes a Join on a white-space separator: a line made of
   * non-empty fields without white space splits back into those fields.
   */
  lemma {:induction false} FieldsJoin(ws: seq<string>, sep: char)
    requires IsSpace(sep) && Words(ws)
    ensures Fields(Join(ws, sep)) == ws
    decreases |ws|
  {
    if ws == [] {
      FieldsStep([]);
    } else if |ws| == 1 {
      assert Join(ws, sep) == ws[0];
      FieldsOneWord(ws[0]);
      assert [ws[0]] == ws;
    } else {
      var w, tail := ws[0], ws[1..];
      assert Fields(Join(tail, sep)) == tail by {
        FieldsJoin(tail, sep);
      }
      assert Fields(Join([w] + tail, sep)) == [w] + Fields(Join(tail, sep)) by {
        FieldsJoinCons(w, tail, sep);
      }
      ConsTail(ws);
    }
  }

  /** strings.Split with a one-rune separator: |separators| + 1 pieces, none holding `sep`. */
  function Split(s: string, sep: char): (r: seq<string>)
    ensures |r| >= 1
    decreases |s|
  {
    if s == [] then [""]
    else
      var rest := Split(s[1..], sep);
      if s[0] == sep then [""] + rest else [[s[0]] + rest[0]] + rest[1..]
  }

  /** No piece of a split holds the separator. */
  lemma {:induction false} SplitPiecesAvoid(s: string, sep: char)
    ensures forall i :: 0 <= i < |Split(s, sep)| ==> sep !in Split(s, sep)[i]
    decreases |s|
  {
    if s != [] {
      SplitPiecesAvoid(s[1..], sep);
    }
  }

  /** strings.Join with a one-rune separator. */
  function Join(parts: seq<string>, sep: char): string {
    if parts == [] then ""
    else if |parts| == 1 then parts[0]
    else parts[0] + [sep] + Join(parts[1..], sep)
  }

  lemma {:induction false} JoinSplit(s: string, sep: char)
    ensures Join(Split(s, sep), sep) == s
    decreases |s|
  {
    if s != [] {
      var rest := Split(s[1..], sep);
      JoinSplit(s[1..], sep);
      if s[0] == sep {
        assert Split(s, sep) == [""] + rest;
        assert ([""] + rest)[1..] == rest;
      } else {
        var r := [[s[0]] + rest[0]] + rest[1..];
        assert Split(s, sep) == r;
        if |rest| == 1 {
          assert Join(rest, sep) == rest[0];
        } else {
          assert r[1..] == rest[1..];
          assert Join(rest, sep) == rest[0] + [sep] + Join(rest[1..], sep);
        }
      }
    }
  }

  lemma {:induction false} SplitJoin(parts: seq<string>, sep: char)
    requires |parts| >= 1
    requires forall i :: 0 <= i < |parts| ==> sep !in parts[i]
    ensures Split(Join(parts, sep), sep) == parts
    decreases |parts|, |parts[0]|
  {
    var p := parts[0];
    if p == [] {
      if |parts| > 1 {
        SplitJoin(parts[1..], sep);
        assert Join(parts, sep) == [sep] + Join(parts[1..], sep);
        assert ([sep] + Join(parts[1..], sep))[1..] == Join(parts[1..], sep);
        assert [""] + parts[1..] == parts;
      }
    } else {
      var tail := [p[1..]] + parts[1..];
      assert tail[1..] == parts[1..];
      SplitJoin(tail, sep);
      assert Join(parts, sep) == [p[0]] + Join(tail, sep) by {
        if |parts| > 1 {
          assert Join(tail, sep) == p[1..] + [sep] + Join(parts[1..], sep);
        }
      }
      assert p[0] != sep by { assert p[0] in parts[0]; }
      assert ([p[0]] + Join(tail, sep))[1..] == Join(tail, sep);
      assert [p[0]] + tail[0] == p;
      assert [[p[0]] + tail[0]] + tail[1..] == parts;
    }
  }

  /** `sub` occurs in `s` starting at index `j`. */
  predicate OccursAt(s: string, sub: string, j: int) {
    0 <= j && j + |sub| <= |s| && s[j..j + |sub|] == sub
  }

  function IndexFrom(s: string, sub: string, k: nat): (r: int)
    requires k <= |s|
    ensures r == -1 || (k <= r && OccursAt(s, sub, r))
    ensures forall j :: k <= j && (r == -1 || j < r) ==> !OccursAt(s, sub, j)
    decreases |s| - k
  {
    if k + |sub| > |s| then -1
    else if s[k..k + |sub|] == sub then k
    else IndexFrom(s, sub, k + 1)
  }

  /** strings.Index: the first occurrence of `sub` in `s`, or -1. */
  function Index(s: string, sub: string): (r: int)
    ensures r == -1 || OccursAt(s, sub, r)
    ensures forall j :: (r == -1 || j < r) ==> !OccursAt(s, sub, j)
  {
    IndexFrom(s, sub, 0)
  }

  /** strings.Contains. */
  predicate Contains(s: string, sub: string)
  {
    Index(s, sub) >= 0
  }

  lemma ContainsMeansOccurs(s: string, sub: string)
    ensures Contains(s, sub) <==> exists j :: OccursAt(s, sub, j)
  {
  }

  /**
   * The rune strings.ToLower maps `c` to, as far as matching an ASCII needle
   * is concerned: A-Z, U+0130 and U+212A are the only runes whose lower case
   * is ASCII; every other rune is kept, which matches no ASCII rune either way.
   */
  function LowerRune(c: char): (r: char)
    ensures '\0' <= c < '\U{80}' ==> ('\0' <= r < '\U{80}')
  {
    if 'A' <= c <= 'Z' then (c as int + 32) as char
    else if c == '\U{130}' then 'i'
    else if c == '\U{212A}' then 'k'
    else c
  }

  function ToLower(s: string): (r: string)
    ensures |r| == |s|
    ensures forall i :: 0 <= i < |s| ==> r[i] == LowerRune(s[i])
  {
    if s == [] then [] else [LowerRune(s[0])] + ToLower(s[1..])
  }
}

=== FILE: lifecycle.dfy ===
/**
 * The node-side volume lifecycle across requests: stage, publish,
 * unpublish and unstage, each applied to the host state the previous one
 * left behind.
 */
module Lifecycle {
  import opened Wrappers
  import opened GoStrings
  import opened Csi
  import opened Mounter
  import opened Stage
  import opened Publish

  /** A successful stage mounts the staging path and nothing else. */
  lemma StageRequestMounts(req: NodeStageVolumeRequest, s: HostState, f: Faults)
    requires StageSteps(req, s, f).result.Ok?
    ensures StageSteps(req, s, f).after.mounted == s.mounted + {req.stagingTargetPath}
  {
    var p := CheckStageRequest(req).value;
    var tokens := OptionTokens(p.mountOptions);
    StageMountsStaging(p, OptionFlags(tokens), Join(PassThrough(tokens), ','), MountErrorOf(f), s, f);
  }

  /**
   * Once a volume is staged, publishing it from that staging path
   * succeeds when no host call fails: the single mounted check finds the
   * staging path mounted.
   */
  lemma PublishAfterStage(sreq: NodeStageVolumeRequest, preq: NodePublishVolumeRequest, s: HostState, f: Faults)
    requires StageSteps(sreq, s, f).result.Ok?
    requires PublishRequestValid(preq) && preq.stagingTargetPath == sreq.stagingTargetPath
    ensures PublishSteps(preq, StageSteps(sreq, s, f).after, NoFaults).result.Ok?
  {
    StageRequestMounts(sreq, s, f);
    PublishSucceeds(preq, StageSteps(sreq, s, f).after, NoFaults);
  }

  /**
   * A full successful lifecycle on paths that were not mounted leaves the
   * mount table as it found it; in between, the target is mounted exactly
   * while it is published.
   */
  lemma LifecycleRestoresMounts(
    sreq: NodeStageVolumeRequest, preq: NodePublishVolumeRequest,
    ureq: NodeUnpublishVolumeRequest, usreq: NodeUnstageVolumeRequest,
    s0: HostState, s1: HostState, s2: HostState, s3: HostState,
    f1: Faults, f2: Faults, f3: Faults, f4: Faults)
    requires preq.stagingTargetPath == sreq.stagingTargetPath == usreq.stagingTargetPath
    requires ureq.targetPath == preq.targetPath
    requires sreq.stagingTargetPath !in s0.mounted && preq.targetPath !in s0.mounted
    requires StageSteps(sreq, s0, f1).result.Ok? && s1 == StageSteps(sreq, s0, f1).after
    requires PublishSteps(preq, s1, f2).result.Ok? && s2 == PublishSteps(preq, s1, f2).after
    requires UnpublishSteps(ureq, s2, f3).result.Ok? && s3 == UnpublishSteps(ureq, s2, f3).after
    requires UnstageSteps(usreq, s3, f4).result.Ok?
    ensures preq.targetPath in s2.mounted && preq.targetPath !in s3.mounted
    ensures UnstageSteps(usreq, s3, f4).after.mounted == s0.mounted
  {
    var staging, target := sreq.stagingTargetPath, preq.targetPath;
    assert s1.mounted == s0.mounted + {staging} by { StageRequestMounts(sreq, s0, f1); }
    assert s2.mounted == s1.mounted + {target} by { PublishMountsTarget(preq, s1, f2); }
    assert s3.mounted == s2.mounted - {target} by { UnpublishUnmountsTarget(ureq, s2, f3); }
    assert UnstageSteps(usreq, s3, f4).after.mounted == s3.mounted - {staging} by { UnstageUnmounts(usreq, s3, f4); }
    MountThenUnmount(s0.mounted, staging, target);
  }

  /** Adding two paths that were absent and removing them again, innermost first, restores the set. */
  lemma MountThenUnmount(m: set<string>, a: string, b: string)
    requires a !in m && b !in m
    ensures m + {a} + {b} - {b} - {a} == m
  {
  }
}

=== FILE: mounter.dfy ===
/**
 * The host the node plugin acts on, as seen through the Mounter interface
 * (Mount, Unmount, IsMountPoint) and the os calls the handlers make
 * (MkdirAll, Chmod, RemoveAll) plus the external mount helper.
 *
 * The mount table follows the fake mounter of the end-to-end tests: a
 * successful Mount adds its target to the mounted set, a successful Unmount
 * deletes it, IsMountPoint looks the path up. Every call may fail; whether
 * it does is an input (a Faults record), so each handler is a function of
 * its request, the host state and the failures it meets.
 */
module Mounter {
  import opened Wrappers
  import opened Syscall
  import opened Csi
  import FilePath
  import GoStrings

  /** One call the node made on its host, with the error it got back. */
  datatype Call =
    | MkdirAllCall(path: string, perm: nat, err: Option<OsError>)
    | IsMountPointCall(path: string, mounted: bool, err: Option<OsError>)
    | MountCall(source: string, target: string, fstype: string, flags: set<MountFlag>, data: string, err: Option<OsError>)
    | HelperCall(fsType: string, source: string, target: string, opts: string, err: Option<OsError>)
    | ChmodCall(path: string, mode: nat, err: Option<OsError>)
    | UnmountCall(target: string, unmountFlags: int, err: Option<OsError>)
    | RemoveAllCall(path: string, err: Option<OsError>)

  /** What the host holds: mounted paths, existing directories and their modes. */
  datatype HostState = HostState(mounted: set<string>, dirs: set<string>, modes: map<string, nat>)

  /**
   * `d` is `root` or lies beneath it, compared as paths: both are cleaned
   * first, so "/t/" and "/t" name one directory, and every rooted path lies
   * beneath "/".
   */
  predicate Within(d: string, root: string) {
    var c, e := FilePath.Clean(root), FilePath.Clean(d);
    e == c || (|c| < |e| && e[..|c|] == c && (c[|c| - 1] == '/' || e[|c|] == '/'))
  }

  /** A root and its cleaned form hold the same paths. */
  lemma WithinCleanRoot(d: string, root: string)
    ensures Within(d, root) <==> Within(d, FilePath.Clean(root))
  {
    FilePath.CleanIdempotent(root);
  }

  /** Every rooted path lies beneath "/". */
  lemma WithinSlash(d: string)
    requires d != "" && d[0] == '/'
    ensures Within(d, "/")
  {
    assert FilePath.Clean("/") == "/" by {
      assert "/"[1..] == "";
      assert GoStrings.Split("/", '/') == ["", ""];
      assert ["", ""][..1] == [""] && [""][..0] == [];
      assert FilePath.Reduce(["", ""], true) == [];
    }
    FilePath.CleanKeepsRoot(d);
  }

  lemma CleanT()
    ensures FilePath.Clean("/t") == "/t" && FilePath.Clean("/t/") == "/t"
  {
    var t, ts := "/t", "/t/";
    assert GoStrings.Split(t, '/') == ["", "t"] by {
      assert t[1..] == "t" && t[1..][1..] == "";
      assert GoStrings.Split("", '/') == [""] && [""][1..] == [] && ['t'] + "" == "t";
    }
    assert GoStrings.Split(ts, '/') == ["", "t", ""] by {
      assert ts[1..] == "t/" && ts[1..][1..] == "/" && "/"[1..] == "";
      assert GoStrings.Split("/", '/') == ["", ""];
    }
    assert FilePath.Reduce(["", "t"], true) == ["t"] by {
      assert ["", "t"][..1] == [""] && [""][..0] == [];
    }
    assert FilePath.Reduce(["", "t", ""], true) == ["t"] by {
      assert ["", "t", ""][..2] == ["", "t"];
    }
  }

  lemma CleanTX()
    ensures FilePath.Clean("/t/x") == "/t/x"
  {
    var tx := "/t/x";
    assert GoStrings.Split(tx, '/') == ["", "t", "x"] by {
      assert tx[1..] == "t/x" && tx[1..][1..] == "/x" && tx[1..][1..][1..] == "x";
      assert "x"[1..] == "" && GoStrings.Split("", '/') == [""];
      assert [""][1..] == [] && ['x'] + "" == "x";
      assert GoStrings.Split("x", '/') == ["x"];
      assert GoStrings.Split("/x", '/') == ["", "x"];
      assert ['t'] + "" == "t" && ["", "x"][1..] == ["x"];
      assert GoStrings.Split("t/x", '/') == ["t", "x"];
    }
    assert FilePath.Reduce(["", "t", "x"], true) == ["t", "x"] by {
      assert ["", "t", "x"][..2] == ["", "t"] && ["", "t"][..1] == [""] && [""][..0] == [];
    }
    assert GoStrings.Join(["t", "x"], '/') == "t/x" by {
      assert ["t", "x"][1..] == ["x"];
    }
  }

  /** A trailing slash on the root does not hide what lies beneath it. */
  lemma WithinTrailingSlash()
    ensures Within("/t/x", "/t/") && Within("/t", "/t/")
  {
    CleanT();
    CleanTX();
    assert "/t/x"[..2] == "/t";
  }

  /** The effect of one call on the host. A failed call changes nothing. */
  function Step(s: HostState, c: Call): (t: HostState)
    ensures c.err.Some? ==> t == s
    ensures t.mounted == s.mounted || c.MountCall? || c.HelperCall? || c.UnmountCall?
  {
    if c.err.Some? then s
    else match c
      case MkdirAllCall(path, perm, _) =>
        if path in s.dirs then s else s.(dirs := s.dirs + {path}, modes := s.modes[path := perm])
      case IsMountPointCall(_, _, _) => s
      case MountCall(_, target, _, _, _, _) => s.(mounted := s.mounted + {target})
      case HelperCall(_, _, target, _, _) => s.(mounted := s.mounted + {target})
      case ChmodCall(path, mode, _) => s.(modes := s.modes[path := mode])
      case UnmountCall(target, _, _) => s.(mounted := s.mounted - {target})
      case RemoveAllCall(path, _) =>
        s.(dirs := (set d | d in s.dirs && !Within(d, path)),
           modes := (map d | d in s.modes && !Within(d, path) :: s.modes[d]))
  }

  /** The host after a sequence of calls, applied in order. */
  function Replay(s: HostState, calls: seq<Call>): HostState {
    if calls == [] then s else Step(Replay(s, calls[..|calls| - 1]), calls[|calls| - 1])
  }

  /** Replaying one more call is one more step. */
  lemma ReplaySnoc(s: HostState, calls: seq<Call>, c: Call)
    ensures Replay(s, calls + [c]) == Step(Replay(s, calls), c)
  {
    assert (calls + [c])[..|calls|] == calls;
  }

  /** Replaying two runs of calls is replaying the second on the result of the first. */
  lemma {:induction false} ReplayAppend(s: HostState, a: seq<Call>, b: seq<Call>)
    ensures Replay(s, a + b) == Replay(Replay(s, a), b)
    decreases |b|
  {
    if b == [] {
      assert a + b == a;
    } else {
      var init := b[..|b| - 1];
      ReplayAppend(s, a, init);
      assert (a + b)[..|a + b| - 1] == a + init;
      assert (a + b)[|a + b| - 1] == b[|b| - 1];
    }
  }

  /** The answer IsMountPoint gives: a lookup, unless the check itself fails. */
  function Probe(s: HostState, path: string, fault: Option<OsError>): (c: Call)
    ensures c.IsMountPointCall? && c.path == path && c.err == fault
    ensures c.mounted <==> fault.None? && path in s.mounted
  {
    IsMountPointCall(path, fault.None? && path in s.mounted, fault)
  }

  /** Permission bits for the directories the node creates (staging and target paths): 0755. */
  const DirPerm: nat := 0x1ED

  /** The error, if any, each kind of host call returns during one request. */
  datatype Faults = Faults(
    mkdirAll: Option<OsError>,
    isMountPoint: Option<OsError>,
    mount: Option<OsError>,
    helper: Option<OsError>,
    chmod: Option<OsError>,
    unmount: Option<OsError>,
    removeAll: Option<OsError>)

  const NoFaults := Faults(None, None, None, None, None, None, None)

  /**
   * What a handler does: the response it returns, the host calls it made,
   * in order, and the host it leaves behind.
   */
  datatype Outcome<T> = Outcome(result: Response<T>, calls: seq<Call>, after: HostState)

  /** The host, updated in place by each call; `calls` logs every call made. */
  class Host {
    var mounted: set<string>
    var dirs: set<string>
    var modes: map<string, nat>
    var calls: seq<Call>

    function State(): HostState
      reads this
    {
      HostState(mounted, dirs, modes)
    }

    constructor (s: HostState)
      ensures State() == s && calls == []
    {
      mounted, dirs, modes := s.mounted, s.dirs, s.modes;
      calls := [];
    }

    /** os.MkdirAll. */
    method MkdirAll(path: string, perm: nat, fault: Option<OsError>) returns (err: Option<OsError>)
      modifies this
      ensures err == fault
      ensures calls == old(calls) + [MkdirAllCall(path, perm, fault)]
      ensures State() == Step(old(State()), MkdirAllCall(path, perm, fault))
    {
      err := fault;
      if fault.None? && path !in dirs {
        dirs := dirs + {path};
        modes := modes[path := perm];
      }
      calls := calls + [MkdirAllCall(path, perm, fault)];
    }

    /** Mounter.IsMountPoint: (false, err) on failure, otherwise whether `path` is mounted. */
    method IsMountPoint(path: string, fault: Option<OsError>) returns (isMounted: bool, err: Option<OsError>)
      modifies this
      ensures err == fault
      ensures isMounted <==> fault.None? && path in old(mounted)
      ensures calls == old(calls) + [Probe(old(State()), path, fault)]
      ensures State() == old(State())
    {
      err := fault;
      isMounted := fault.None? && path in mounted;
      calls := calls + [IsMountPointCall(path, isMounted, fault)];
    }

    /** Mounter.Mount. */
    method Mount(source: string, target: string, fstype: string, flags: set<MountFlag>, data: string, fault: Option<OsError>)
      returns (err: Option<OsError>)
      modifies this
      ensures err == fault
      ensures calls == old(calls) + [MountCall(source, target, fstype, flags, data, fault)]
      ensures State() == Step(old(State()), MountCall(source, target, fstype, flags, data, fault))
    {
      err := fault;
      if fault.None? {
        mounted := mounted + {target};
      }
      calls := calls + [MountCall(source, target, fstype, flags, data, fault)];
    }

    /** The `mount -t fsType` helper, which mounts `target` when it succeeds. */
    method MountHelper(fsType: string, source: string, target: string, opts: string, fault: Option<OsError>)
      returns (err: Option<OsError>)
      modifies this
      ensures err == fault
      ensures calls == old(calls) + [HelperCall(fsType, source, target, opts, fault)]
      ensures State() == Step(old(State()), HelperCall(fsType, source, target, opts, fault))
    {
      err := fault;
      if fault.None? {
        mounted := mounted + {target};
      }
      calls := calls + [HelperCall(fsType, source, target, opts, fault)];
    }

    /** os.Chmod. */
    method Chmod(path: string, mode: nat, fault: Option<OsError>) returns (err: Option<OsError>)
      modifies this
      ensures err == fault
      ensures calls == old(calls) + [ChmodCall(path, mode, fault)]
      ensures State() == Step(old(State()), ChmodCall(path, mode, fault))
    {
      err := fault;
      if fault.None? {
        modes := modes[path := mode];
      }
      calls := calls + [ChmodCall(path, mode, fault)];
    }

    /** Mounter.Unmount. */
    method Unmount(target: string, unmountFlags: int, fault: Option<OsError>) returns (err: Option<OsError>)
      modifies this
      ensures err == fault
      ensures calls == old(calls) + [UnmountCall(target, unmountFlags, fault)]
      ensures State() == Step(old(State()), UnmountCall(target, unmountFlags, fault))
    {
      err := fault;
      if fault.None? {
        mounted := mounted - {target};
      }
      calls := calls + [UnmountCall(target, unmountFlags, fault)];
    }

    /** os.RemoveAll: `path` and everything beneath it. */
    method RemoveAll(path: string, fault: Option<OsError>) returns (err: Option<OsError>)
      modifies this
      ensures err == fault
      ensures calls == old(calls) + [RemoveAllCall(path, fault)]
      ensures State() == Step(old(State()), RemoveAllCall(path, fault))
    {
      err := fault;
      if fault.None? {
        dirs := set d | d in dirs && !Within(d, path);
        modes := map d | d in modes && !Within(d, path) :: modes[d];
      }
      calls := calls + [RemoveAllCall(path, fault)];
    }
  }
}

=== FILE: mountinfo.dfy ===
/**
 * pkg/util: "is this path a mount point", answered from the Linux mount
 * table (/proc/self/mountinfo, proc(5)) and, when that cannot be read, by
 * comparing the device ids of the path and its parent.
 */
module MountInfo {
  import opened Wrappers
  import opened GoStrings
  import opened FilePath
  import opened Syscall

  // ---------------------------------------------------------------------
  // Octal escapes in path fields
  // ---------------------------------------------------------------------

  /** The runes the kernel writes as octal escapes in mountinfo path fields. */
  predicate Mangled(c: char) {
    c == ' ' || c == '\t' || c == '\n' || c == '\\'
  }

  function OctalCode(c: char): (code: string)
    requires Mangled(c)
    ensures |code| == 3
  {
    if c == ' ' then "040" else if c == '\t' then "011" else if c == '\n' then "012" else "134"
  }

  /** The rune a four-rune escape at the start of `s` stands for, if one is there. */
  function EscapeAt(s: string): Option<char> {
    if |s| < 4 || s[0] != '\\' then None
    else if s[1..4] == "040" then Some(' ')
    else if s[1..4] == "011" then Some('\t')
    else if s[1..4] == "012" then Some('\n')
    else if s[1..4] == "134" then Some('\\')
    else None
  }

  /**
   * unescapeMountPath: one left-to-right pass of strings.Replacer over the
   * four escapes; text produced by a replacement is not scanned again.
   */
  function Unescape(s: string): (r: string)
    ensures |r| <= |s|
    decreases |s|
  {
    if s == [] then []
    else match EscapeAt(s)
      case Some(c) => [c] + Unescape(s[4..])
      case None => [s[0]] + Unescape(s[1..])
  }

  /**
   * The kernel's side: how a path is written into a mountinfo field. Space,
   * tab, newline and backslash are escaped; every other rune, white space
   * such as '\r' or U+00A0 included, is written as it is.
   */
  function Escape(s: string): (r: string)
    ensures ' ' !in r && '\t' !in r && '\n' !in r
  {
    if s == [] then []
    else if Mangled(s[0]) then ['\\'] + OctalCode(s[0]) + Escape(s[1..])
    else [s[0]] + Escape(s[1..])
  }

  /** Decoding undoes the kernel's encoding: every path survives the round trip. */
  lemma {:induction false} UnescapeEscape(s: string)
    ensures Unescape(Escape(s)) == s
  {
    if s != [] {
      UnescapeEscape(s[1..]);
      var e := Escape(s);
      if Mangled(s[0]) {
        assert e == ['\\'] + OctalCode(s[0]) + Escape(s[1..]);
        assert e[1..4] == OctalCode(s[0]) && e[4..] == Escape(s[1..]);
      } else {
        assert e == [s[0]] + Escape(s[1..]);
        assert e[1..] == Escape(s[1..]);
      }
    }
  }

  /** Text without a backslash is left as it is. */
  lemma {:induction false} UnescapePlain(s: string)
    requires '\\' !in s
    ensures Unescape(s) == s
  {
    if s != [] {
      assert s[0] != '\\';
      assert '\\' !in s[1..] by {
        forall i | 0 <= i < |s[1..]| ensures s[1..][i] != '\\' {
          assert s[1..][i] == s[i + 1];
        }
      }
      UnescapePlain(s[1..]);
    }
  }

  /** The pass does not rescan its output: an escaped backslash followed by
      "040" decodes to a backslash and "040", not to a space. */
  lemma UnescapeSinglePass()
    ensures Unescape("\\134040") == "\\040"
  {
    var s := "\\134040";
    assert EscapeAt(s) == Some('\\');
    var t := s[4..];
    assert t == "040";
    assert EscapeAt(t) == None && EscapeAt(t[1..]) == None && EscapeAt(t[2..]) == None;
    assert t[1..] == "40" && t[2..] == "0" && t[3..] == "";
  }

  /** Plain text followed by an escaped space decodes to that text and a space. */
  lemma {:induction false} UnescapeSpaceAfter(a: string, b: string)
    requires '\\' !in a
    ensures Unescape(a + "\\040" + b) == a + " " + Unescape(b)
  {
    var s := a + "\\040" + b;
    if a == [] {
      assert s == "\\040" + b;
      assert s[1..4] == "040" && s[4..] == b;
    } else {
      assert s[0] == a[0] != '\\';
      assert s[1..] == a[1..] + "\\040" + b;
      assert '\\' !in a[1..] by {
        forall i | 0 <= i < |a[1..]| ensures a[1..][i] != '\\' {
          assert a[1..][i] == a[i + 1];
        }
      }
      UnescapeSpaceAfter(a[1..], b);
    }
  }

  /** The mount point of the table test, written with escaped spaces, decodes to the queried name. */
  lemma EscapedSpaceExample()
    ensures Unescape("globalmount\\040with\\040space") == "globalmount with space"
  {
    var a, b, c, e := "globalmount", "with", "space", "\\040";
    assert Unescape(a + e + (b + e + c)) == a + " " + (b + " " + c) by {
      UnescapePlain(c);
      UnescapeSpaceAfter(b, c);
      UnescapeSpaceAfter(a, b + e + c);
    }
    assert "globalmount\\040with\\040space" == a + e + (b + e + c);
    assert "globalmount with space" == a + " " + (b + " " + c);
  }

  /** A path whose only white space is space, tab or newline is encoded without any white space. */
  lemma {:induction false} EscapeNoSpace(p: string)
    requires forall i :: 0 <= i < |p| && IsSpace(p[i]) ==> Mangled(p[i])
    ensures NoSpace(Escape(p)) && (p != [] ==> Escape(p) != [])
  {
    if p != [] {
      var rest := p[1..];
      assert forall i :: 0 <= i < |rest| ==> rest[i] == p[i + 1];
      EscapeNoSpace(rest);
      var head := if Mangled(p[0]) then ['\\'] + OctalCode(p[0]) else [p[0]];
      assert NoSpace(head);
      assert Escape(p) == head + Escape(rest);
    }
  }

  /** A path without a rune the kernel escapes is written as it is. */
  lemma {:induction false} EscapeUnmangled(p: string)
    requires forall i :: 0 <= i < |p| ==> !Mangled(p[i])
    ensures Escape(p) == p
  {
    if p != [] {
      var rest := p[1..];
      assert forall i :: 0 <= i < |rest| ==> rest[i] == p[i + 1];
      EscapeUnmangled(rest);
    }
  }

  /**
   * A carriage return is white space to strings.Fields but is not escaped
   * by the kernel: a mount point holding one reaches the scan cut in two.
   */
  lemma CarriageReturnSplitsField()
    ensures Escape("a\rb") == "a\rb"
    ensures Fields("a\rb") == ["a", "b"]
  {
    var s, ws := "a\rb", ["a", "b"];
    assert !Mangled(s[0]) && !Mangled(s[1]) && !Mangled(s[2]);
    EscapeUnmangled(s);
    assert Join(ws, '\r') == s by {
      assert ws[1..] == ["b"];
    }
    assert Words(ws) by {
      assert ws[1..] == ["b"] && ws[1..][1..] == [];
      assert NoSpace(ws[0]) && NoSpace(ws[1]);
    }
    FieldsJoin(ws, '\r');
  }

  // ---------------------------------------------------------------------
  // The line scan
  // ---------------------------------------------------------------------

  /** strings.SplitN(line, " - ", 2)[0]: the text before the first separator. */
  function BeforeSeparator(line: string): (head: string)
    ensures |head| <= |line| && head == line[..|head|]
    ensures Index(line, " - ") == -1 ==> head == line
    ensures Index(line, " - ") >= 0 ==> |head| == Index(line, " - ")
  {
    var i := Index(line, " - ");
    if i < 0 then line else line[..i]
  }

  /** strings.Split(data, "\n"): the lines of the table. */
  function Lines(table: string): seq<string> {
    Split(table, '\n')
  }

  /**
   * The cleaned mount point a line names, or None for a line the scan skips:
   * a blank line, or one with fewer than five white-space separated fields
   * before the separator.
   */
  function LineMountPoint(line: string): Option<string> {
    if TrimSpace(line) == "" then None
    else
      var fields := Fields(BeforeSeparator(line));
      if |fields| < 5 then None else Some(Clean(Unescape(fields[4])))
  }

  /**
   * Only the text before the first separator is read: whatever follows it
   * (the filesystem type, the source, the super options) never changes the
   * mount point a line names.
   */
  lemma AfterSeparatorIgnored(h: string, t: string)
    ensures LineMountPoint(h + " - " + t) == LineMountPoint(h + " - ")
  {
    var sep := " - ";
    var long, short := h + sep + t, h + sep;
    assert long[..|short|] == short;
    assert OccursAt(short, sep, |h|);
    var k := Index(short, sep);
    assert 0 <= k <= |h|;
    forall j | 0 <= j <= k
      ensures OccursAt(long, sep, j) == OccursAt(short, sep, j)
    {
      assert long[j..j + |sep|] == short[j..j + |sep|];
    }
    assert Index(long, sep) == k;
    assert BeforeSeparator(long) == BeforeSeparator(short) by {
      assert long[..k] == short[..k];
    }
    assert !AllSpace(long) && !AllSpace(short) by {
      assert long[|h| + 1] == short[|h| + 1] == '-';
    }
    TrimSpaceEmpty(long);
    TrimSpaceEmpty(short);
  }

  /**
   * The scan reads a mount point back from the fifth field of a line the
   * kernel wrote with single blanks, as long as the path's only white space
   * is space, tab or newline (see CarriageReturnSplitsField for the rest).
   */
  lemma FifthFieldBridge(ws: seq<string>, p: string)
    requires |ws| >= 5 && ws[4] == Escape(p) && p != []
    requires forall i :: 0 <= i < |p| && IsSpace(p[i]) ==> Mangled(p[i])
    requires forall i :: 0 <= i < |ws| && i != 4 ==> ws[i] != [] && NoSpace(ws[i])
    ensures |Fields(Join(ws, ' '))| == |ws|
    ensures Unescape(Fields(Join(ws, ' '))[4]) == p
  {
    EscapeNoSpace(p);
    WordsEach(ws);
    FieldsJoin(ws, ' ');
    UnescapeEscape(p);
  }

  /**
   * Some line of `lines` names `path`. Defined line by line (the last line is
   * peeled off), which is also how the scan below reaches its answer.
   */
  function Names(lines: seq<string>, path: string): bool {
    if lines == [] then false
    else Names(lines[..|lines| - 1], path) || LineMountPoint(lines[|lines| - 1]) == Some(path)
  }

  /**
   * isMountPointFromMountInfo: `mountInfo` is what reading the table gave.
   * A read error is passed on; otherwise the answer is whether some line
   * names `path`.
   */
  method IsMountPointFromMountInfo(mountInfo: Result<string, OsError>, path: string) returns (r: Result<bool, OsError>)
    ensures mountInfo.Err? ==> r == Err(mountInfo.error)
    ensures mountInfo.Ok? ==> r == Ok(Names(Lines(mountInfo.value), path))
  {
    if mountInfo.Err? {
      return Err(mountInfo.error);
    }
    var lines := Split(mountInfo.value, '\n');
    for i := 0 to |lines|
      invariant !Names(lines[..i], path)
    {
      assert lines[..i + 1][..i] == lines[..i];
      var line := lines[i];
      if TrimSpace(line) == "" {
        assert LineMountPoint(line) == None;
        continue;
      }
      var head := BeforeSeparator(line);
      var fields := Fields(head);
      if |fields| < 5 {
        assert LineMountPoint(line) == None;
        continue;
      }
      var mountPoint := Unescape(fields[4]);
      assert LineMountPoint(line) == Some(Clean(mountPoint));
      if Clean(mountPoint) == path {
        NamesPrefix(lines, i + 1, path);
        return Ok(true);
      }
    }
    assert lines[..|lines|] == lines;
    return Ok(false);
  }

  /** A line found in a prefix is found in the whole table. */
  lemma {:induction false} NamesPrefix(lines: seq<string>, k: nat, path: string)
    requires k <= |lines|
    requires Names(lines[..k], path)
    ensures Names(lines, path)
    decreases |lines| - k
  {
    if k < |lines| {
      assert lines[..k + 1][..k] == lines[..k];
      NamesPrefix(lines, k + 1, path);
    } else {
      assert lines[..k] == lines;
    }
  }

  /**
   * IsMountPoint: the table answers for the cleaned path whenever it can be
   * read; only otherwise does stat(2) decide, by comparing the device id of
   * the (uncleaned) path with that of its parent directory.
   */
  method IsMountPoint(path: string, mountInfo: Result<string, OsError>, stat: string -> Result<nat, OsError>)
    returns (r: Result<bool, OsError>)
    ensures mountInfo.Ok? ==> r == Ok(Names(Lines(mountInfo.value), Clean(path)))
    ensures mountInfo.Err? && stat(path).Err? ==> r == Err(stat(path).error)
    ensures mountInfo.Err? && stat(path).Ok? && stat(Dir(path)).Err? ==> r == Err(stat(Dir(path)).error)
    ensures mountInfo.Err? && stat(path).Ok? && stat(Dir(path)).Ok? ==>
              r == Ok(stat(path).value != stat(Dir(path)).value)
  {
    var cleaned := Clean(path);
    var fromTable := IsMountPointFromMountInfo(mountInfo, cleaned);
    if fromTable.Ok? {
      return fromTable;
    }
    var st := stat(path);
    if st.Err? {
      return Err(st.error);
    }
    var parent := Dir(path);
    var parentSt := stat(parent);
    if parentSt.Err? {
      return Err(parentSt.error);
    }
    return Ok(st.value != parentSt.value);
  }

  /** A query and its cleaned form get the same answer from the table. */
  lemma CleanQueryInvariant(lines: seq<string>, path: string)
    ensures Names(lines, Clean(Clean(path))) == Names(lines, Clean(path))
  {
    CleanIdempotent(path);
  }

  /** One more line is found exactly when it or an earlier line names the path. */
  lemma NamesSnoc(lines: seq<string>, line: string, path: string)
    ensures Names(lines + [line], path) == (Names(lines, path) || LineMountPoint(line) == Some(path))
  {
    assert (lines + [line])[..|lines|] == lines;
  }

  /** Splitting the table in two: a line is found in the whole exactly when it is found in one part. */
  lemma {:induction false} NamesAppend(a: seq<string>, b: seq<string>, path: string)
    ensures Names(a + b, path) == (Names(a, path) || Names(b, path))
    decreases |b|
  {
    if b == [] {
      assert a + b == a;
    } else {
      var init, last := b[..|b| - 1], b[|b| - 1];
      assert b == init + [last];
      assert a + b == (a + init) + [last];
      NamesAppend(a, init, path);
      NamesSnoc(a + init, last, path);
      NamesSnoc(init, last, path);
    }
  }

  /** The order of the table's lines does not change the answer. */
  lemma NamesOrderFree(a: seq<string>, b: seq<string>, path: string)
    ensures Names(a + b, path) == Names(b + a, path)
  {
    NamesAppend(a, b, path);
    NamesAppend(b, a, path);
  }
}

=== FILE: node.dfy ===
/**
 * The node service (pkg/node): a Node holds its id, its endpoint and the
 * host it mounts on, and each RPC handler performs its host calls one by
 * one with early returns, as the Go handlers do. Every handler is proved
 * to return what the matching function of modules Stage and Publish
 * returns, to make exactly that function's calls, and to leave the host
 * in the state those calls produce.
 */
module NodeService {
  import opened Wrappers
  import opened GoStrings
  import opened StrConv
  import opened Syscall
  import opened Csi
  import opened Mounter
  import opened Stage
  import opened Publish

  class Node {
    const nodeId: string
    const endpoint: string
    const mounter: Host

    /** NewNodeWithMounter: a node acting on the given host. */
    constructor NewNodeWithMounter(nodeId: string, endpoint: string, mounter: Host)
      ensures this.nodeId == nodeId && this.endpoint == endpoint && this.mounter == mounter
    {
      this.nodeId := nodeId;
      this.endpoint := endpoint;
      this.mounter := mounter;
    }

    /** NodeStageVolume: validate, create the staging directory, mount unless already mounted, chmod. */
    method NodeStageVolume(req: NodeStageVolumeRequest, f: Faults) returns (r: Response<NodeStageVolumeResponse>)
      modifies mounter
      ensures var o := StageSteps(req, old(mounter.State()), f);
        && r == o.result
        && mounter.calls == old(mounter.calls) + o.calls
        && mounter.State() == o.after
    {
      var ctx := req.volumeContext;
      if req.volumeId == "" {
        return Err(Status(InvalidArgument, VolumeIdRequired));
      }
      if req.stagingTargetPath == "" {
        return Err(Status(InvalidArgument, StagingTargetPathRequired));
      }
      if req.volumeCapability.None? {
        return Err(Status(InvalidArgument, VolumeCapabilityRequired));
      }
      var fsType := "";
      var mount := GetMount(req.volumeCapability.value);
      if mount.Some? {
        fsType := mount.value.fsType;
      }
      if fsType == "" && "fsType" in ctx {
        fsType := ctx["fsType"];
      }
      if fsType == "" {
        return Err(Status(InvalidArgument, FsTypeRequired));
      }
      if "fileMode" !in ctx {
        return Err(Status(InvalidArgument, FileModeRequired));
      }
      var mode := ParseOctal32(ctx["fileMode"]);
      if mode.None? {
        return Err(Status(InvalidArgument, InvalidFileMode));
      }
      if "source" !in ctx || ctx["source"] == "" {
        return Err(Status(InvalidArgument, SourceRequired));
      }
      var source := ctx["source"];
      var volumePath := req.stagingTargetPath;
      var opts := TrimSpace(Lookup(ctx, "mountOptions"));
      var p := StageParams(volumePath, fsType, mode.value, source, opts);
      assert CheckStageRequest(req) == Ok(p);
      var flags, data := ParseMountOptions(opts);
      r := StageOnHost(p, flags, data, f);
    }

    /**
     * The host part of NodeStageVolume once the request is valid and its
     * options are parsed: MkdirAll, the mounted check and, unless the
     * staging path is already mounted, the mount part.
     */
    method StageOnHost(p: StageParams, flags: set<MountFlag>, data: string, f: Faults) returns (r: Response<NodeStageVolumeResponse>)
      modifies mounter
      ensures var o := StageEffects(p, flags, data, MountErrorOf(f), old(mounter.State()), f);
        && r == o.result
        && mounter.calls == old(mounter.calls) + o.calls
        && mounter.State() == o.after
    {
      ghost var log0 := mounter.calls;
      var volumePath := p.stagingPath;
      var err := mounter.MkdirAll(volumePath, DirPerm, f.mkdirAll);
      if err.Some? {
        return Err(Status(Internal, CreateStagingPathFailed));
      }
      var isMounted, checkErr := mounter.IsMountPoint(volumePath, f.isMountPoint);
      if checkErr.None? && isMounted {
        return Ok(NodeStageVolumeResponse);
      }
      ghost var mkdir := MkdirAllCall(volumePath, DirPerm, f.mkdirAll);
      ghost var probe := Probe(Step(old(mounter.State()), mkdir), volumePath, f.isMountPoint);
      ghost var t2 := mounter.State();
      r := MountOnHost(p, flags, data, f);
      assert mounter.calls == log0 + ([mkdir, probe] + MountSteps(p, flags, data, MountErrorOf(f), t2, f).calls);
    }

    /** Mount, the helper after a no-such-device error, and Chmod, for a valid stage request. */
    method MountOnHost(p: StageParams, flags: set<MountFlag>, data: string, f: Faults) returns (r: Response<NodeStageVolumeResponse>)
      modifies mounter
      ensures var o := MountSteps(p, flags, data, MountErrorOf(f), old(mounter.State()), f);
        && r == o.result
        && mounter.calls == old(mounter.calls) + o.calls
        && mounter.State() == o.after
    {
      var volumePath := p.stagingPath;
      var err := mounter.Mount(p.source, volumePath, p.fsType, flags, data, f.mount);
      if err.Some? {
        var kind := ClassifyMountError(err.value);
        if kind == NoSuchDevice {
          var helperErr := mounter.MountHelper(p.fsType, p.source, volumePath, p.mountOptions, f.helper);
          if helperErr.Some? {
            return Err(Status(Internal, MountHelperFailed));
          }
        } else if kind == PermissionDenied {
          return Err(Status(Internal, MountPermissionDenied));
        } else {
          return Err(Status(Internal, MountFailed));
        }
      }
      err := mounter.Chmod(volumePath, p.fileMode, f.chmod);
      if err.Some? {
        return Err(Status(Internal, SetFileModeFailed));
      }
      return Ok(NodeStageVolumeResponse);
    }

    /** NodeUnstageVolume: validate, then a single Unmount of the staging path. */
    method NodeUnstageVolume(req: NodeUnstageVolumeRequest, f: Faults) returns (r: Response<NodeUnstageVolumeResponse>)
      modifies mounter
      ensures var o := UnstageSteps(req, old(mounter.State()), f);
        && r == o.result
        && mounter.calls == old(mounter.calls) + o.calls
        && mounter.State() == o.after
    {
      if req.volumeId == "" {
        return Err(Status(InvalidArgument, VolumeIdRequired));
      }
      if req.stagingTargetPath == "" {
        return Err(Status(InvalidArgument, StagingTargetPathRequired));
      }
      var err := mounter.Unmount(req.stagingTargetPath, 0, f.unmount);
      if err.Some? {
        return Err(Status(Internal, UnmountStagingFailed));
      }
      return Ok(NodeUnstageVolumeResponse);
    }

    /** NodePublishVolume: validate, create the target, check the staging mount once, bind-mount. */
    method NodePublishVolume(req: NodePublishVolumeRequest, f: Faults) returns (r: Response<NodePublishVolumeResponse>)
      modifies mounter
      ensures var o := PublishSteps(req, old(mounter.State()), f);
        && r == o.result
        && mounter.calls == old(mounter.calls) + o.calls
        && mounter.State() == o.after
    {
      if req.volumeId == "" {
        return Err(Status(InvalidArgument, VolumeIdRequired));
      }
      if req.targetPath == "" {
        return Err(Status(InvalidArgument, TargetPathRequired));
      }
      if req.volumeCapability.None? {
        return Err(Status(InvalidArgument, VolumeCapabilityRequired));
      }
      if req.stagingTargetPath == "" {
        return Err(Status(InvalidArgument, StagingTargetPathRequired));
      }
      var err := mounter.MkdirAll(req.targetPath, DirPerm, f.mkdirAll);
      if err.Some? {
        return Err(Status(Internal, CreateTargetPathFailed));
      }
      var isMounted, checkErr := mounter.IsMountPoint(req.stagingTargetPath, f.isMountPoint);
      if checkErr.Some? {
        return Err(Status(Internal, CheckStagingMountFailed));
      }
      if !isMounted {
        return Err(Status(FailedPrecondition, StagingNotMounted));
      }
      err := mounter.Mount(req.stagingTargetPath, req.targetPath, "", {BIND}, "", f.mount);
      if err.Some? {
        return Err(Status(Internal, BindMountFailed));
      }
      return Ok(NodePublishVolumeResponse);
    }

    /** NodeUnpublishVolume: validate, unmount the target, then remove it. */
    method NodeUnpublishVolume(req: NodeUnpublishVolumeRequest, f: Faults) returns (r: Response<NodeUnpublishVolumeResponse>)
      modifies mounter
      ensures var o := UnpublishSteps(req, old(mounter.State()), f);
        && r == o.result
        && mounter.calls == old(mounter.calls) + o.calls
        && mounter.State() == o.after
    {
      if req.volumeId == "" {
        return Err(Status(InvalidArgument, VolumeIdRequired));
      }
      if req.targetPath == "" {
        return Err(Status(InvalidArgument, TargetPathRequired));
      }
      var err := mounter.Unmount(req.targetPath, 0, f.unmount);
      if err.Some? {
        return Err(Status(Internal, UnmountTargetFailed));
      }
      err := mounter.RemoveAll(req.targetPath, f.removeAll);
      if err.Some? {
        return Err(Status(Internal, RemoveTargetFailed));
      }
      return Ok(NodeUnpublishVolumeResponse);
    }
  }
}

=== FILE: publish.dfy ===
/**
 * NodePublishVolume and NodeUnpublishVolume (pkg/node/publish.go) as
 * functions from request, host state and faults to the response and the
 * host calls made. Publish bind-mounts the staging path onto the target
 * path, but only once a single mounted check has found the staging path
 * mounted; unpublish unmounts the target and then removes it.
 */
module Publish {
  import opened Wrappers
  import opened Syscall
  import opened Csi
  import opened Mounter

  /** The bind mount publish makes: staging path onto target, no type, MS_BIND, no data. */
  function BindMount(req: NodePublishVolumeRequest, f: Faults): Call {
    MountCall(req.stagingTargetPath, req.targetPath, "", {BIND}, "", f.mount)
  }

  /** The four request fields publish needs are all present. */
  predicate PublishRequestValid(req: NodePublishVolumeRequest) {
    req.volumeId != "" && req.targetPath != "" && req.volumeCapability.Some? && req.stagingTargetPath != ""
  }

  /** NodePublishVolume: the response and the host calls, given the host state and the faults met. */
  function PublishSteps(req: NodePublishVolumeRequest, s: HostState, f: Faults): Outcome<NodePublishVolumeResponse> {
    if req.volumeId == "" then Outcome(Err(Status(InvalidArgument, VolumeIdRequired)), [], s)
    else if req.targetPath == "" then Outcome(Err(Status(InvalidArgument, TargetPathRequired)), [], s)
    else if req.volumeCapability.None? then Outcome(Err(Status(InvalidArgument, VolumeCapabilityRequired)), [], s)
    else if req.stagingTargetPath == "" then Outcome(Err(Status(InvalidArgument, StagingTargetPathRequired)), [], s)
    else
      var mkdir := MkdirAllCall(req.targetPath, DirPerm, f.mkdirAll);
      var t1 := Step(s, mkdir);
      if f.mkdirAll.Some? then Outcome(Err(Status(Internal, CreateTargetPathFailed)), [mkdir], t1)
      else
        var probe := Probe(t1, req.stagingTargetPath, f.isMountPoint);
        var t2 := Step(t1, probe);
        if f.isMountPoint.Some? then Outcome(Err(Status(Internal, CheckStagingMountFailed)), [mkdir, probe], t2)
        else if !probe.mounted then Outcome(Err(Status(FailedPrecondition, StagingNotMounted)), [mkdir, probe], t2)
        else
          var bind := BindMount(req, f);
          if f.mount.Some? then Outcome(Err(Status(Internal, BindMountFailed)), [mkdir, probe, bind], Step(t2, bind))
          else Outcome(Ok(NodePublishVolumeResponse), [mkdir, probe, bind], Step(t2, bind))
  }

  /**
   * The guard clauses in order: volume id, target path, capability, staging
   * path. Each rejection is InvalidArgument and comes before any host call;
   * a request that passes them always reaches the host.
   */
  lemma PublishRejections(req: NodePublishVolumeRequest, s: HostState, f: Faults)
    ensures var o := PublishSteps(req, s, f);
      && (o.calls == [] <==> !PublishRequestValid(req))
      && (req.volumeId == "" ==> o.result == Err(Status(InvalidArgument, VolumeIdRequired)))
      && (req.volumeId != "" && req.targetPath == "" ==> o.result == Err(Status(InvalidArgument, TargetPathRequired)))
      && (req.volumeId != "" && req.targetPath != "" && req.volumeCapability.None? ==>
            o.result == Err(Status(InvalidArgument, VolumeCapabilityRequired)))
      && (req.volumeId != "" && req.targetPath != "" && req.volumeCapability.Some? && req.stagingTargetPath == "" ==>
            o.result == Err(Status(InvalidArgument, StagingTargetPathRequired)))
  {
  }

  /**
   * The staging path is checked exactly once, right after the target
   * directory is created: no retry. When it is not mounted the answer is
   * FailedPrecondition and no bind mount is tried; when the check itself
   * fails the answer is Internal, again without a mount.
   */
  lemma PublishChecksStagingOnce(req: NodePublishVolumeRequest, s: HostState, f: Faults)
    requires PublishRequestValid(req) && f.mkdirAll.None?
    ensures var o := PublishSteps(req, s, f);
      && |o.calls| >= 2 && o.calls[0] == MkdirAllCall(req.targetPath, DirPerm, None)
      && o.calls[1].IsMountPointCall? && o.calls[1].path == req.stagingTargetPath
      && (forall k :: 0 <= k < |o.calls| && o.calls[k].IsMountPointCall? ==> k == 1)
      && (f.isMountPoint.Some? ==>
            o.result == Err(Status(Internal, CheckStagingMountFailed)) && |o.calls| == 2)
      && (f.isMountPoint.None? && req.stagingTargetPath !in s.mounted ==>
            o.result == Err(Status(FailedPrecondition, StagingNotMounted)) && |o.calls| == 2)
  {
    assert Step(s, MkdirAllCall(req.targetPath, DirPerm, f.mkdirAll)).mounted == s.mounted;
  }

  /**
   * Publish succeeds exactly when the request is valid, MkdirAll succeeds,
   * the staging path is mounted and the bind mount succeeds; the bind mount
   * is then the last call, with flags word MS_BIND. A failed MkdirAll is
   * Internal after that one call; a failed bind mount is Internal too.
   */
  lemma PublishSucceeds(req: NodePublishVolumeRequest, s: HostState, f: Faults)
    ensures var o := PublishSteps(req, s, f);
      && (o.result.Ok? <==>
            PublishRequestValid(req) && f.mkdirAll.None? && f.isMountPoint.None?
            && req.stagingTargetPath in s.mounted && f.mount.None?)
      && (PublishRequestValid(req) && f.mkdirAll.Some? ==>
            o.result == Err(Status(Internal, CreateTargetPathFailed))
            && o.calls == [MkdirAllCall(req.targetPath, DirPerm, f.mkdirAll)] && o.after == s)
      && (PublishRequestValid(req) && f.mkdirAll.None? && f.isMountPoint.None?
            && req.stagingTargetPath in s.mounted && f.mount.Some? ==>
            o.result == Err(Status(Internal, BindMountFailed)))
      && (o.result.Ok? ==> |o.calls| == 3 && o.calls[2] == BindMount(req, f) && Bits(o.calls[2].flags) == MS_BIND)
      && (forall c :: c in o.calls && c.MountCall? ==> c == BindMount(req, f))
  {
    var mkdir := MkdirAllCall(req.targetPath, DirPerm, f.mkdirAll);
    assert Step(s, mkdir).mounted == s.mounted;
    BitsIff({BIND}, BIND);
    BitsOnlyFlags({BIND});
    var o := PublishSteps(req, s, f);
    if PublishRequestValid(req) && f.mkdirAll.None? {
      var probe := Probe(s, req.stagingTargetPath, f.isMountPoint);
      if probe.mounted {
        assert o.calls == [mkdir, probe, BindMount(req, f)];
      } else {
        assert o.calls == [mkdir, probe];
      }
    }
  }

  /**
   * A publish leaves the host its call log produces. After a successful
   * one the target is mounted, no other mount changed, and the target
   * directory exists.
   */
  lemma PublishMountsTarget(req: NodePublishVolumeRequest, s: HostState, f: Faults)
    ensures var o := PublishSteps(req, s, f);
      && Replay(s, o.calls) == o.after
      && (o.result.Ok? ==> o.after.mounted == s.mounted + {req.targetPath} && req.targetPath in o.after.dirs)
  {
    var mkdir := MkdirAllCall(req.targetPath, DirPerm, f.mkdirAll);
    var s1 := Step(s, mkdir);
    assert s1.mounted == s.mounted;
    var probe := Probe(s1, req.stagingTargetPath, f.isMountPoint);
    var bind := BindMount(req, f);
    ReplaySnoc(s, [], mkdir);
    assert [] + [mkdir] == [mkdir];
    ReplaySnoc(s, [mkdir], probe);
    assert [mkdir] + [probe] == [mkdir, probe];
    ReplaySnoc(s, [mkdir, probe], bind);
    assert [mkdir, probe] + [bind] == [mkdir, probe, bind];
  }

  /** NodeUnpublishVolume: the response and the host calls, given the host state and the faults met. */
  function UnpublishSteps(req: NodeUnpublishVolumeRequest, s: HostState, f: Faults): Outcome<NodeUnpublishVolumeResponse> {
    if req.volumeId == "" then Outcome(Err(Status(InvalidArgument, VolumeIdRequired)), [], s)
    else if req.targetPath == "" then Outcome(Err(Status(InvalidArgument, TargetPathRequired)), [], s)
    else
      var unmount := UnmountCall(req.targetPath, 0, f.unmount);
      var t1 := Step(s, unmount);
      if f.unmount.Some? then Outcome(Err(Status(Internal, UnmountTargetFailed)), [unmount], t1)
      else
        var remove := RemoveAllCall(req.targetPath, f.removeAll);
        if f.removeAll.Some? then Outcome(Err(Status(Internal, RemoveTargetFailed)), [unmount, remove], Step(t1, remove))
        else Outcome(Ok(NodeUnpublishVolumeResponse), [unmount, remove], Step(t1, remove))
  }

  /**
   * Unpublish: an empty volume id, then an empty target path, is
   * InvalidArgument with no host call. Otherwise the first call is
   * Unmount(target, 0); if it fails the answer is Internal and the host is
   * left exactly as it was (RemoveAll is not called); RemoveAll runs only
   * after a successful unmount and its failure is Internal too.
   */
  lemma UnpublishOrder(req: NodeUnpublishVolumeRequest, s: HostState, f: Faults)
    ensures var o := UnpublishSteps(req, s, f);
      && (req.volumeId == "" ==> o == Outcome(Err(Status(InvalidArgument, VolumeIdRequired)), [], s))
      && (req.volumeId != "" && req.targetPath == "" ==> o == Outcome(Err(Status(InvalidArgument, TargetPathRequired)), [], s))
      && (req.volumeId != "" && req.targetPath != "" ==>
            && |o.calls| >= 1 && o.calls[0] == UnmountCall(req.targetPath, 0, f.unmount)
            && (f.unmount.Some? ==>
                  o.result == Err(Status(Internal, UnmountTargetFailed)) && |o.calls| == 1 && o.after == s)
            && (f.unmount.None? ==>
                  o.calls == [o.calls[0], RemoveAllCall(req.targetPath, f.removeAll)]
                  && (o.result.Ok? <==> f.removeAll.None?)
                  && (o.result.Err? ==> o.result.error == Status(Internal, RemoveTargetFailed))))
      && (forall k :: 0 <= k < |o.calls| && o.calls[k].RemoveAllCall? ==> k == 1 && o.calls[0].err.None?)
  {
  }

  /**
   * An unpublish leaves the host its call log produces. After a successful
   * one the target is no longer mounted, every other mount is unchanged,
   * and neither the target nor anything beneath it remains, while
   * directories outside it are untouched.
   */
  lemma UnpublishUnmountsTarget(req: NodeUnpublishVolumeRequest, s: HostState, f: Faults)
    ensures var o := UnpublishSteps(req, s, f);
      && Replay(s, o.calls) == o.after
      && (o.result.Ok? ==>
            && o.after.mounted == s.mounted - {req.targetPath}
            && (forall d :: d in o.after.dirs <==> d in s.dirs && !Within(d, req.targetPath)))
  {
    var unmount := UnmountCall(req.targetPath, 0, f.unmount);
    var remove := RemoveAllCall(req.targetPath, f.removeAll);
    ReplaySnoc(s, [], unmount);
    assert [] + [unmount] == [unmount];
    ReplaySnoc(s, [unmount], remove);
    assert [unmount] + [remove] == [unmount, remove];
  }
}

=== FILE: stage.dfy ===
/**
 * NodeStageVolume and NodeUnstageVolume (pkg/node/stage.go): what a request
 * must carry, how the mount-option string becomes mount(2) flags plus
 * pass-through data, when the external `mount` helper is tried, and how
 * failures are classified. The handlers themselves, which perform the host
 * calls one by one, are in module NodeService; here each handler is given
 * as a function from request, host state and faults to the response and
 * the calls made, and its properties are proved about that function.
 */
module Stage {
  import opened Wrappers
  import opened GoStrings
  import opened StrConv
  import opened Syscall
  import opened Csi
  import opened Mounter

  // ---------------------------------------------------------------------
  // Request validation
  // ---------------------------------------------------------------------

  /**
   * The filesystem type: the capability's mount fsType when it names one,
   * otherwise the volume context's "fsType" entry ("" when absent).
   */
  function ResolveFsType(cap: VolumeCapability, ctx: map<string, string>): (fsType: string)
    ensures GetMount(cap).Some? && GetMount(cap).value.fsType != "" ==> fsType == GetMount(cap).value.fsType
    ensures (GetMount(cap).None? || GetMount(cap).value.fsType == "") ==> fsType == Lookup(ctx, "fsType")
  {
    var fromCap := match GetMount(cap) case Some(m) => m.fsType case None => "";
    if fromCap != "" then fromCap else Lookup(ctx, "fsType")
  }

  /** What a valid stage request resolves to. */
  datatype StageParams = StageParams(
    stagingPath: string,
    fsType: string,
    fileMode: nat,
    source: string,
    mountOptions: string)

  /** The guard clauses of NodeStageVolume, in the order the handler runs them. */
  function CheckStageRequest(req: NodeStageVolumeRequest): (r: Result<StageParams, Status>)
    ensures r.Err? ==> r.error.code == InvalidArgument
    ensures r.Ok? ==>
      var ctx := req.volumeContext;
      && req.volumeId != "" && req.volumeCapability.Some?
      && r.value.stagingPath == req.stagingTargetPath != ""
      && r.value.fsType == ResolveFsType(req.volumeCapability.value, ctx) != ""
      && "fileMode" in ctx && ParseOctal32(ctx["fileMode"]) == Some(r.value.fileMode)
      && r.value.fileMode <= MaxUint32
      && r.value.source == Lookup(ctx, "source") != ""
      && r.value.mountOptions == TrimSpace(Lookup(ctx, "mountOptions"))
  {
    var ctx := req.volumeContext;
    if req.volumeId == "" then Err(Status(InvalidArgument, VolumeIdRequired))
    else if req.stagingTargetPath == "" then Err(Status(InvalidArgument, StagingTargetPathRequired))
    else if req.volumeCapability.None? then Err(Status(InvalidArgument, VolumeCapabilityRequired))
    else
      var fsType := ResolveFsType(req.volumeCapability.value, ctx);
      if fsType == "" then Err(Status(InvalidArgument, FsTypeRequired))
      else if "fileMode" !in ctx then Err(Status(InvalidArgument, FileModeRequired))
      else match ParseOctal32(ctx["fileMode"])
        case None => Err(Status(InvalidArgument, InvalidFileMode))
        case Some(mode) =>
          var source := Lookup(ctx, "source");
          if source == "" then Err(Status(InvalidArgument, SourceRequired))
          else Ok(StageParams(req.stagingTargetPath, fsType, mode, source, TrimSpace(Lookup(ctx, "mountOptions"))))
  }

  /**
   * The guard clauses in order: each rejection is InvalidArgument with the
   * reason of the first missing or malformed field.
   */
  lemma StageRejections(req: NodeStageVolumeRequest)
    ensures var r := CheckStageRequest(req);
      var ctx := req.volumeContext;
      var fsType := if req.volumeCapability.Some? then ResolveFsType(req.volumeCapability.value, ctx) else "";
      && (req.volumeId == "" ==> r == Err(Status(InvalidArgument, VolumeIdRequired)))
      && (req.volumeId != "" && req.stagingTargetPath == "" ==>
            r == Err(Status(InvalidArgument, StagingTargetPathRequired)))
      && (req.volumeId != "" && req.stagingTargetPath != "" && req.volumeCapability.None? ==>
            r == Err(Status(InvalidArgument, VolumeCapabilityRequired)))
      && (req.volumeId != "" && req.stagingTargetPath != "" && req.volumeCapability.Some? && fsType == "" ==>
            r == Err(Status(InvalidArgument, FsTypeRequired)))
      && (req.volumeId != "" && req.stagingTargetPath != "" && fsType != "" && "fileMode" !in ctx ==>
            r == Err(Status(InvalidArgument, FileModeRequired)))
      && (req.volumeId != "" && req.stagingTargetPath != "" && fsType != "" && "fileMode" in ctx
            && ParseOctal32(ctx["fileMode"]).None? ==>
            r == Err(Status(InvalidArgument, InvalidFileMode)))
      && (req.volumeId != "" && req.stagingTargetPath != "" && fsType != "" && "fileMode" in ctx
            && ParseOctal32(ctx["fileMode"]).Some? && Lookup(ctx, "source") == "" ==>
            r == Err(Status(InvalidArgument, SourceRequired)))
  {
  }

  // ---------------------------------------------------------------------
  // Mount options
  // ---------------------------------------------------------------------

  /** The flag an option name ORs in; "rw" and every other name set none. */
  function FlagOf(o: string): Option<MountFlag> {
    if o == "ro" then Some(RDONLY)
    else if o == "nosuid" then Some(NOSUID)
    else if o == "nodev" then Some(NODEV)
    else if o == "noexec" then Some(NOEXEC)
    else if o == "noatime" then Some(NOATIME)
    else if o == "relatime" then Some(RELATIME)
    else None
  }

  /** The option names the tokenizer consumes itself instead of passing on: the flag names and "rw". */
  predicate KnownOption(o: string) {
    FlagOf(o).Some? || o == "rw"
  }

  /** The bits of every flag the tokenizer can set. */
  const KnownFlags: bv64 := MS_RDONLY | MS_NOSUID | MS_NODEV | MS_NOEXEC | MS_NOATIME | MS_RELATIME

  /** The non-empty trimmed pieces, in order. */
  function Tokens(pieces: seq<string>): seq<string> {
    if pieces == [] then []
    else
      var o := TrimSpace(pieces[|pieces| - 1]);
      Tokens(pieces[..|pieces| - 1]) + (if o == "" then [] else [o])
  }

  /** The tokens of an (already trimmed) option string: its comma-separated, trimmed, non-empty pieces. */
  function OptionTokens(opts: string): seq<string> {
    if opts == "" then [] else Tokens(Split(opts, ','))
  }

  /** The flags a token list ORs together. */
  function OptionFlags(tokens: seq<string>): set<MountFlag> {
    if tokens == [] then {}
    else
      var flag := FlagOf(tokens[|tokens| - 1]);
      OptionFlags(tokens[..|tokens| - 1]) + (if flag.Some? then {flag.value} else {})
  }

  /** The tokens passed through to the filesystem as mount data, in order. */
  function PassThrough(tokens: seq<string>): seq<string> {
    if tokens == [] then []
    else
      var o := tokens[|tokens| - 1];
      PassThrough(tokens[..|tokens| - 1]) + (if KnownOption(o) then [] else [o])
  }

  /** One more piece adds its trimmed text as a token unless that is empty. */
  lemma TokensStep(pieces: seq<string>, i: nat)
    requires i < |pieces|
    ensures var o := TrimSpace(pieces[i]);
      Tokens(pieces[..i + 1]) == Tokens(pieces[..i]) + (if o == "" then [] else [o])
  {
    assert pieces[..i + 1][..i] == pieces[..i];
  }

  /** One more token adds its flag, or passes through when it is not an option name. */
  lemma OptionStep(tokens: seq<string>, o: string)
    ensures OptionFlags(tokens + [o]) == OptionFlags(tokens) + (if FlagOf(o).Some? then {FlagOf(o).value} else {})
    ensures PassThrough(tokens + [o]) == PassThrough(tokens) + (if KnownOption(o) then [] else [o])
  {
    assert (tokens + [o])[..|tokens|] == tokens;
  }

  /** One more piece: its trimmed text, unless empty, adds its flag or passes through. */
  lemma PieceStep(pieces: seq<string>, i: nat)
    requires i < |pieces|
    ensures var o := TrimSpace(pieces[i]);
      && OptionFlags(Tokens(pieces[..i + 1]))
         == OptionFlags(Tokens(pieces[..i])) + (if o != "" && FlagOf(o).Some? then {FlagOf(o).value} else {})
      && PassThrough(Tokens(pieces[..i + 1]))
         == PassThrough(Tokens(pieces[..i])) + (if o == "" || KnownOption(o) then [] else [o])
  {
    var o := TrimSpace(pieces[i]);
    var done := Tokens(pieces[..i]);
    TokensStep(pieces, i);
    if o == "" {
      assert done + [] == done;
    } else {
      OptionStep(done, o);
    }
  }

  /**
   * The option loop of NodeStageVolume over the comma-separated pieces:
   * trim each piece, skip empty ones, OR in the flag of each known name and
   * collect every other token except "rw".
   */
  method ParsePieces(pieces: seq<string>) returns (flags: set<MountFlag>, dataOpts: seq<string>)
    ensures flags == OptionFlags(Tokens(pieces))
    ensures dataOpts == PassThrough(Tokens(pieces))
  {
    flags := {};
    dataOpts := [];
    for i := 0 to |pieces|
      invariant flags == OptionFlags(Tokens(pieces[..i]))
      invariant dataOpts == PassThrough(Tokens(pieces[..i]))
    {
      var o := TrimSpace(pieces[i]);
      PieceStep(pieces, i);
      if o == "" {
        continue;
      }
      match FlagOf(o)
      case Some(flag) =>
        flags := flags + {flag};
      case None =>
        if o != "rw" {
          dataOpts := dataOpts + [o];
        }
    }
    assert pieces[..|pieces|] == pieces;
  }

  /**
   * The mount flags and the mount data of an (already trimmed) option
   * string: nothing for the empty string, otherwise the option loop over
   * its comma-separated pieces, the collected tokens joined with ','.
   */
  method ParseMountOptions(opts: string) returns (flags: set<MountFlag>, data: string)
    ensures flags == OptionFlags(OptionTokens(opts))
    ensures data == Join(PassThrough(OptionTokens(opts)), ',')
  {
    flags := {};
    var dataOpts: seq<string> := [];
    if opts != "" {
      flags, dataOpts := ParsePieces(Split(opts, ','));
    }
    data := Join(dataOpts, ',');
  }

  /** Tokens are non-empty, carry no surrounding white space and no separator. */
  lemma {:induction false} TokensWellFormed(pieces: seq<string>)
    requires forall i :: 0 <= i < |pieces| ==> ',' !in pieces[i]
    ensures forall t :: t in Tokens(pieces) ==> t != "" && !IsSpace(t[0]) && !IsSpace(t[|t| - 1]) && ',' !in t
  {
    if pieces != [] {
      var init, last := pieces[..|pieces| - 1], pieces[|pieces| - 1];
      var o := TrimSpace(last);
      TokensWellFormed(init);
      TrimSpaceKeepsOut(last, ',');
      assert Tokens(pieces) == Tokens(init) + (if o == "" then [] else [o]);
    }
  }

  lemma OptionTokensWellFormed(opts: string)
    ensures forall t :: t in OptionTokens(opts) ==> t != "" && !IsSpace(t[0]) && !IsSpace(t[|t| - 1]) && ',' !in t
  {
    if opts != "" {
      SplitPiecesAvoid(opts, ',');
      TokensWellFormed(Split(opts, ','));
    }
  }

  /** A flag is in the set exactly when its option name is among the tokens. */
  lemma {:induction false} FlagSetIffNamed(tokens: seq<string>, o: string)
    requires FlagOf(o).Some?
    ensures FlagOf(o).value in OptionFlags(tokens) <==> o in tokens
  {
    if tokens != [] {
      var init, last := tokens[..|tokens| - 1], tokens[|tokens| - 1];
      FlagSetIffNamed(init, o);
      assert tokens == init + [last];
      assert FlagOf(last) == FlagOf(o) ==> last == o;
    }
  }

  /** Bind is never among the option flags. */
  lemma {:induction false} NoBindFromOptions(tokens: seq<string>)
    ensures BIND !in OptionFlags(tokens)
  {
    if tokens != [] {
      NoBindFromOptions(tokens[..|tokens| - 1]);
    }
  }

  /**
   * In the flag word handed to mount(2), the bit of ro, nosuid, nodev,
   * noexec, noatime or relatime is set exactly when that name is among the
   * option tokens, and no other bit is ever set.
   */
  lemma OptionBits(opts: string, o: string)
    requires FlagOf(o).Some?
    ensures var word := Bits(OptionFlags(OptionTokens(opts)));
      && ((word & FlagBit(FlagOf(o).value) != 0) <==> o in OptionTokens(opts))
      && word & !KnownFlags == 0
  {
    var flags := OptionFlags(OptionTokens(opts));
    FlagSetIffNamed(OptionTokens(opts), o);
    BitsIff(flags, FlagOf(o).value);
    NoBindFromOptions(OptionTokens(opts));
    BitsOnlyFlags(flags);
  }

  /** The pass-through data holds exactly the tokens that are not option names ("rw" included). */
  lemma {:induction false} PassThroughMembers(tokens: seq<string>)
    ensures forall t :: t in PassThrough(tokens) <==> t in tokens && !KnownOption(t)
  {
    if tokens != [] {
      var init, last := tokens[..|tokens| - 1], tokens[|tokens| - 1];
      PassThroughMembers(init);
      assert tokens == init + [last];
    }
  }

  /** Passing tokens through keeps their relative order: it commutes with concatenation. */
  lemma {:induction false} PassThroughAppend(a: seq<string>, b: seq<string>)
    ensures PassThrough(a + b) == PassThrough(a) + PassThrough(b)
    decreases |b|
  {
    if b == [] {
      assert a + b == a;
    } else {
      var init := b[..|b| - 1];
      PassThroughAppend(a, init);
      assert (a + b)[..|a + b| - 1] == a + init;
      assert (a + b)[|a + b| - 1] == b[|b| - 1];
    }
  }

  /** The filesystem reads back exactly the pass-through tokens from the joined data. */
  lemma DataRoundTrip(opts: string)
    ensures var d := PassThrough(OptionTokens(opts));
            (d == [] ==> Join(d, ',') == "") && (d != [] ==> Split(Join(d, ','), ',') == d)
  {
    var tokens := OptionTokens(opts);
    var d := PassThrough(tokens);
    OptionTokensWellFormed(opts);
    PassThroughMembers(tokens);
    if d != [] {
      SplitJoin(d, ',');
    }
  }

  // ---------------------------------------------------------------------
  // The mount helper
  // ---------------------------------------------------------------------

  /** How mount(8) reads the argument vector: `-t TYPE [-o OPTIONS] SOURCE TARGET`. */
  datatype HelperInvocation = HelperInvocation(fsType: string, options: Option<string>, source: string, target: string)

  function ReadMountArgs(args: seq<string>): Option<HelperInvocation> {
    if |args| == 4 && args[0] == "-t" then Some(HelperInvocation(args[1], None, args[2], args[3]))
    else if |args| == 6 && args[0] == "-t" && args[2] == "-o" then
      Some(HelperInvocation(args[1], Some(args[3]), args[4], args[5]))
    else None
  }

  /**
   * The argument vector a recorded helper call runs `mount` with; its error
   * is what the run returned and plays no part in the vector.
   */
  function HelperArgv(c: Call): (args: seq<string>)
    requires c.HelperCall?
    ensures ReadMountArgs(args) ==
      Some(HelperInvocation(c.fsType, if TrimSpace(c.opts) != "" then Some(c.opts) else None, c.source, c.target))
  {
    if TrimSpace(c.opts) != "" then ["-t", c.fsType, "-o", c.opts, c.source, c.target]
    else ["-t", c.fsType, c.source, c.target]
  }

  /**
   * The argument vector execMountHelper passes to `mount`, the one the
   * recorded helper call stands for: mount(8) reads back the type, the
   * source, the target and, only when the option string is not blank, the
   * option string.
   */
  method MountHelperArgs(fsType: string, source: string, target: string, opts: string) returns (args: seq<string>)
    ensures args == HelperArgv(HelperCall(fsType, source, target, opts, None))
    ensures |args| >= 4 && args[..2] == ["-t", fsType]
    ensures ReadMountArgs(args) ==
      Some(HelperInvocation(fsType, if TrimSpace(opts) != "" then Some(opts) else None, source, target))
  {
    args := ["-t", fsType];
    if TrimSpace(opts) != "" {
      args := args + ["-o", opts];
    }
    args := args + [source, target];
  }

  // ---------------------------------------------------------------------
  // Failure classification
  // ---------------------------------------------------------------------

  /** isNoSuchDevice: ENODEV, or a message that says "no such device" in any case. */
  predicate IsNoSuchDevice(e: OsError) {
    e.errno == ENODEV || Contains(ToLower(e.msg), "no such device")
  }

  /** isPermissionError: EPERM or EACCES, or a message saying so in any case. */
  predicate IsPermissionError(e: OsError) {
    || e.errno == EPERM || e.errno == EACCES
    || Contains(ToLower(e.msg), "permission denied")
    || Contains(ToLower(e.msg), "operation not permitted")
  }

  /** The errors of the fallback examples: ENODEV is one, a plain "boom" is not. */
  lemma NoSuchDeviceExamples(m: string)
    ensures IsNoSuchDevice(OsError(ENODEV, m))
    ensures !IsNoSuchDevice(OsError(NoErrno, "boom"))
  {
    var boom := "boom";
    assert !OccursAt(ToLower(boom), "no such device", 0);
  }

  /** The three ways NodeStageVolume reports a failed mount(2). */
  datatype MountError = NoSuchDevice | PermissionDenied | OtherMountError

  /** The device check comes first, so an ENODEV that also says "permission denied" still falls back. */
  function ClassifyMountError(e: OsError): (k: MountError)
    ensures k == NoSuchDevice <==> IsNoSuchDevice(e)
    ensures k == PermissionDenied <==> !IsNoSuchDevice(e) && IsPermissionError(e)
  {
    if IsNoSuchDevice(e) then NoSuchDevice
    else if IsPermissionError(e) then PermissionDenied
    else OtherMountError
  }

  // ---------------------------------------------------------------------
  // The handlers as functions
  // ---------------------------------------------------------------------

  /** Chmod to the requested mode, the last step of a stage that mounted; `t` is the host before it. */
  function ChmodSteps(p: StageParams, f: Faults, done: seq<Call>, t: HostState): (o: Outcome<NodeStageVolumeResponse>)
    ensures o.calls == done + [ChmodCall(p.stagingPath, p.fileMode, f.chmod)]
    ensures o.result.Err? <==> f.chmod.Some?
    ensures o.result.Err? ==> o.result.error == Status(Internal, SetFileModeFailed)
    ensures o.after.mounted == t.mounted
  {
    var chmod := ChmodCall(p.stagingPath, p.fileMode, f.chmod);
    if f.chmod.Some? then Outcome(Err(Status(Internal, SetFileModeFailed)), done + [chmod], Step(t, chmod))
    else Outcome(Ok(NodeStageVolumeResponse), done + [chmod], Step(t, chmod))
  }

  /**
   * The mount part of NodeStageVolume, on host `t`: mount(2) with `flags`
   * and `data`, the helper when the mount error is `NoSuchDevice`, then
   * Chmod. `kind` classifies f.mount and is ignored when the mount succeeds.
   */
  function MountSteps(p: StageParams, flags: set<MountFlag>, data: string, kind: MountError, t: HostState, f: Faults)
    : Outcome<NodeStageVolumeResponse>
  {
    var mount := MountCall(p.source, p.stagingPath, p.fsType, flags, data, f.mount);
    var t1 := Step(t, mount);
    if f.mount.None? then ChmodSteps(p, f, [mount], t1)
    else match kind
      case NoSuchDevice =>
        var helper := HelperCall(p.fsType, p.source, p.stagingPath, p.mountOptions, f.helper);
        var t2 := Step(t1, helper);
        if f.helper.Some? then Outcome(Err(Status(Internal, MountHelperFailed)), [mount, helper], t2)
        else ChmodSteps(p, f, [mount, helper], t2)
      case PermissionDenied => Outcome(Err(Status(Internal, MountPermissionDenied)), [mount], t1)
      case OtherMountError => Outcome(Err(Status(Internal, MountFailed)), [mount], t1)
  }

  /**
   * The calls of NodeStageVolume once the request is valid: MkdirAll, the
   * mounted check, and the mount part unless the check found the staging
   * path mounted.
   */
  function StageEffects(p: StageParams, flags: set<MountFlag>, data: string, kind: MountError, s: HostState, f: Faults)
    : Outcome<NodeStageVolumeResponse>
  {
    var mkdir := MkdirAllCall(p.stagingPath, DirPerm, f.mkdirAll);
    var t1 := Step(s, mkdir);
    if f.mkdirAll.Some? then Outcome(Err(Status(Internal, CreateStagingPathFailed)), [mkdir], t1)
    else
      var probe := Probe(t1, p.stagingPath, f.isMountPoint);
      var t2 := Step(t1, probe);
      if probe.mounted then Outcome(Ok(NodeStageVolumeResponse), [mkdir, probe], t2)
      else
        var m := MountSteps(p, flags, data, kind, t2, f);
        Outcome(m.result, [mkdir, probe] + m.calls, m.after)
  }

  /** The class of the mount fault, `OtherMountError` standing in when the mount succeeds. */
  function MountErrorOf(f: Faults): MountError {
    if f.mount.Some? then ClassifyMountError(f.mount.value) else OtherMountError
  }

  /** NodeStageVolume: the response and the host calls, given the host state and the faults met. */
  function StageSteps(req: NodeStageVolumeRequest, s: HostState, f: Faults): (o: Outcome<NodeStageVolumeResponse>)
    ensures CheckStageRequest(req).Err? ==> o == Outcome(Err(CheckStageRequest(req).error), [], s)
  {
    match CheckStageRequest(req)
    case Err(st) => Outcome(Err(st), [], s)
    case Ok(p) =>
      var tokens := OptionTokens(p.mountOptions);
      StageEffects(p, OptionFlags(tokens), Join(PassThrough(tokens), ','), MountErrorOf(f), s, f)
  }

  /** The staging directory exists and the mounted check did not find the path mounted. */
  predicate MountAttempted(p: StageParams, s: HostState, f: Faults) {
    f.mkdirAll.None? && !(f.isMountPoint.None? && p.stagingPath in s.mounted)
  }

  /** A valid request always reaches the host: at least MkdirAll runs. */
  lemma StageValidReachesHost(p: StageParams, flags: set<MountFlag>, data: string, kind: MountError, s: HostState, f: Faults)
    ensures var o := StageEffects(p, flags, data, kind, s, f);
      |o.calls| >= 1 && o.calls[0] == MkdirAllCall(p.stagingPath, DirPerm, f.mkdirAll)
      && (f.mkdirAll.Some? ==> o.result == Err(Status(Internal, CreateStagingPathFailed)) && |o.calls| == 1 && o.after == s)
  {
  }

  /**
   * The idempotence check: mount(2) is called exactly when the mounted check
   * did not report the staging path mounted (a failing check does not count
   * as mounted). Otherwise the stage succeeds after MkdirAll and the check,
   * with no Mount, helper or Chmod.
   */
  lemma StageShortCircuit(p: StageParams, flags: set<MountFlag>, data: string, kind: MountError, s: HostState, f: Faults)
    requires f.mkdirAll.None?
    ensures var o := StageEffects(p, flags, data, kind, s, f);
      && ((exists c :: c in o.calls && c.MountCall?) <==> MountAttempted(p, s, f))
      && (!MountAttempted(p, s, f) ==>
            o.result.Ok? && |o.calls| == 2 && o.calls[1] == IsMountPointCall(p.stagingPath, true, None))
  {
    var mkdir := MkdirAllCall(p.stagingPath, DirPerm, f.mkdirAll);
    assert Step(s, mkdir).mounted == s.mounted;
    var o := StageEffects(p, flags, data, kind, s, f);
    if MountAttempted(p, s, f) {
      assert o.calls[2] == MountCall(p.source, p.stagingPath, p.fsType, flags, data, f.mount);
    } else {
      assert o.calls == [mkdir, Probe(s, p.stagingPath, f.isMountPoint)];
    }
  }

  /**
   * The mount(2) call: source, staging path, filesystem type, the option
   * flags and the pass-through data, in that order, right after the check.
   */
  lemma StageMountCall(p: StageParams, flags: set<MountFlag>, data: string, kind: MountError, s: HostState, f: Faults)
    requires MountAttempted(p, s, f)
    ensures var o := StageEffects(p, flags, data, kind, s, f);
      |o.calls| >= 3 && o.calls[2] == MountCall(p.source, p.stagingPath, p.fsType, flags, data, f.mount)
  {
    assert Step(s, MkdirAllCall(p.stagingPath, DirPerm, f.mkdirAll)).mounted == s.mounted;
  }

  /**
   * The helper a stage runs is given the staging path as its target, the
   * request's type and source, and the option string exactly when it is
   * not blank.
   */
  lemma StageHelperArgv(p: StageParams, flags: set<MountFlag>, data: string, kind: MountError, s: HostState, f: Faults)
    ensures var o := StageEffects(p, flags, data, kind, s, f);
      forall c :: c in o.calls && c.HelperCall? ==>
        ReadMountArgs(HelperArgv(c)) == Some(HelperInvocation(
          p.fsType, if TrimSpace(p.mountOptions) != "" then Some(p.mountOptions) else None, p.source, p.stagingPath))
  {
    HelperIffNoSuchDevice(p, flags, data, kind, s, f);
  }

  /**
   * The helper runs exactly when mount(2) failed with a no-such-device
   * error, and then with the type, the source, the staging path and the
   * trimmed option string, unparsed.
   */
  lemma HelperIffNoSuchDevice(p: StageParams, flags: set<MountFlag>, data: string, kind: MountError, s: HostState, f: Faults)
    ensures var o := StageEffects(p, flags, data, kind, s, f);
      && ((exists c :: c in o.calls && c.HelperCall?) <==> MountAttempted(p, s, f) && f.mount.Some? && kind == NoSuchDevice)
      && (forall c :: c in o.calls && c.HelperCall? ==>
            c == HelperCall(p.fsType, p.source, p.stagingPath, p.mountOptions, f.helper))
  {
    var o := StageEffects(p, flags, data, kind, s, f);
    if f.mkdirAll.None? {
      var mkdir := MkdirAllCall(p.stagingPath, DirPerm, f.mkdirAll);
      assert Step(s, mkdir).mounted == s.mounted;
      var probe := Probe(s, p.stagingPath, f.isMountPoint);
      if MountAttempted(p, s, f) {
        var mount := MountCall(p.source, p.stagingPath, p.fsType, flags, data, f.mount);
        var helper := HelperCall(p.fsType, p.source, p.stagingPath, p.mountOptions, f.helper);
        var chmod := ChmodCall(p.stagingPath, p.fileMode, f.chmod);
        if f.mount.None? {
          assert o.calls == [mkdir, probe, mount, chmod];
        } else if kind == NoSuchDevice {
          assert o.calls[3] == helper;
          assert o.calls == [mkdir, probe, mount, helper] || o.calls == [mkdir, probe, mount, helper, chmod];
        } else {
          assert o.calls == [mkdir, probe, mount];
        }
      } else {
        assert o.calls == [mkdir, probe];
      }
    }
  }

  /**
   * Every failed mount ends the request with Internal and no Chmod: a
   * failed helper, a permission error, or any other error, and the status
   * says which of the three it was.
   */
  lemma MountFailureIsInternal(p: StageParams, flags: set<MountFlag>, data: string, kind: MountError, s: HostState, f: Faults)
    requires MountAttempted(p, s, f) && f.mount.Some?
    requires kind != NoSuchDevice || f.helper.Some?
    ensures var o := StageEffects(p, flags, data, kind, s, f);
      && o.result.Err? && o.result.error.code == Internal
      && (forall c :: c in o.calls ==> !c.ChmodCall?)
      && (kind == NoSuchDevice ==> o.result.error.reason == MountHelperFailed)
      && (kind == PermissionDenied ==> o.result.error.reason == MountPermissionDenied)
      && (kind == OtherMountError ==> o.result.error.reason == MountFailed)
  {
    var mkdir := MkdirAllCall(p.stagingPath, DirPerm, f.mkdirAll);
    assert Step(s, mkdir).mounted == s.mounted;
    var probe := Probe(s, p.stagingPath, f.isMountPoint);
    var mount := MountCall(p.source, p.stagingPath, p.fsType, flags, data, f.mount);
    var o := StageEffects(p, flags, data, kind, s, f);
    if kind == NoSuchDevice {
      assert o.calls == [mkdir, probe, mount, HelperCall(p.fsType, p.source, p.stagingPath, p.mountOptions, f.helper)];
    } else {
      assert o.calls == [mkdir, probe, mount];
    }
  }

  /**
   * Chmod, to the parsed mode, is the last call of a stage and comes right
   * after a mount or helper run that succeeded; a stage that gets that far
   * succeeds exactly when the chmod does.
   */
  lemma ChmodOnlyAfterMount(p: StageParams, flags: set<MountFlag>, data: string, kind: MountError, s: HostState, f: Faults)
    ensures var o := StageEffects(p, flags, data, kind, s, f);
      forall k :: 0 <= k < |o.calls| && o.calls[k].ChmodCall? ==>
        && k == |o.calls| - 1 && k > 0
        && (o.calls[k - 1].MountCall? || o.calls[k - 1].HelperCall?) && o.calls[k - 1].err.None?
        && o.calls[k] == ChmodCall(p.stagingPath, p.fileMode, f.chmod)
        && (o.result.Ok? <==> f.chmod.None?)
  {
    var o := StageEffects(p, flags, data, kind, s, f);
    var mkdir := MkdirAllCall(p.stagingPath, DirPerm, f.mkdirAll);
    if MountAttempted(p, s, f) {
      assert Step(s, mkdir).mounted == s.mounted;
      var probe := Probe(s, p.stagingPath, f.isMountPoint);
      var mount := MountCall(p.source, p.stagingPath, p.fsType, flags, data, f.mount);
      var helper := HelperCall(p.fsType, p.source, p.stagingPath, p.mountOptions, f.helper);
      var chmod := ChmodCall(p.stagingPath, p.fileMode, f.chmod);
      if f.mount.None? {
        assert o.calls == [mkdir, probe, mount, chmod];
      } else if kind == NoSuchDevice {
        if f.helper.None? {
          assert o.calls == [mkdir, probe, mount, helper, chmod];
        } else {
          assert o.calls == [mkdir, probe, mount, helper];
        }
      } else {
        assert o.calls == [mkdir, probe, mount];
      }
    } else if f.mkdirAll.None? {
      assert Step(s, mkdir).mounted == s.mounted;
      assert o.calls == [mkdir, Probe(s, p.stagingPath, f.isMountPoint)];
    }
  }

  /** Replaying the calls of the mount part on `t` gives the host it leaves behind. */
  lemma MountStepsReplay(p: StageParams, flags: set<MountFlag>, data: string, kind: MountError, t: HostState, f: Faults)
    ensures var m := MountSteps(p, flags, data, kind, t, f);
      Replay(t, m.calls) == m.after
  {
    var mount := MountCall(p.source, p.stagingPath, p.fsType, flags, data, f.mount);
    var chmod := ChmodCall(p.stagingPath, p.fileMode, f.chmod);
    ReplaySnoc(t, [], mount);
    assert [] + [mount] == [mount];
    if f.mount.None? {
      ReplaySnoc(t, [mount], chmod);
    } else if kind == NoSuchDevice {
      var helper := HelperCall(p.fsType, p.source, p.stagingPath, p.mountOptions, f.helper);
      ReplaySnoc(t, [mount], helper);
      assert [mount] + [helper] == [mount, helper];
      ReplaySnoc(t, [mount, helper], chmod);
    }
  }

  /**
   * The host a stage leaves behind is the one its call log produces:
   * replaying the calls, in order, on the host it started from.
   */
  lemma StageReplays(p: StageParams, flags: set<MountFlag>, data: string, kind: MountError, s: HostState, f: Faults)
    ensures var o := StageEffects(p, flags, data, kind, s, f);
      Replay(s, o.calls) == o.after
  {
    var mkdir := MkdirAllCall(p.stagingPath, DirPerm, f.mkdirAll);
    var probe := Probe(Step(s, mkdir), p.stagingPath, f.isMountPoint);
    ReplaySnoc(s, [], mkdir);
    assert [] + [mkdir] == [mkdir];
    ReplaySnoc(s, [mkdir], probe);
    assert [mkdir] + [probe] == [mkdir, probe];
    var t2 := Step(Step(s, mkdir), probe);
    MountStepsReplay(p, flags, data, kind, t2, f);
    ReplayAppend(s, [mkdir, probe], MountSteps(p, flags, data, kind, t2, f).calls);
  }

  /**
   * After a successful stage the staging path is mounted and every other
   * mount is as it was. A stage that mounted leaves the staging directory
   * with the requested mode; one that found the path already mounted does
   * not re-apply it, and leaves an existing directory's host untouched.
   */
  lemma StageMountsStaging(p: StageParams, flags: set<MountFlag>, data: string, kind: MountError, s: HostState, f: Faults)
    requires StageEffects(p, flags, data, kind, s, f).result.Ok?
    ensures StageEffects(p, flags, data, kind, s, f).after.mounted == s.mounted + {p.stagingPath}
    ensures var o := StageEffects(p, flags, data, kind, s, f);
      MountAttempted(p, s, f) ==> p.stagingPath in o.after.modes && o.after.modes[p.stagingPath] == p.fileMode
    ensures var o := StageEffects(p, flags, data, kind, s, f);
      !MountAttempted(p, s, f) ==>
        ChmodCall(p.stagingPath, p.fileMode, f.chmod) !in o.calls && (p.stagingPath in s.dirs ==> o.after == s)
  {
    var mkdir := MkdirAllCall(p.stagingPath, DirPerm, f.mkdirAll);
    var probe := Probe(Step(s, mkdir), p.stagingPath, f.isMountPoint);
    assert Step(Step(s, mkdir), probe).mounted == s.mounted;
  }

  /** NodeUnstageVolume: two guard clauses, then one Unmount(stagingPath, 0) with no mounted check. */
  function UnstageSteps(req: NodeUnstageVolumeRequest, s: HostState, f: Faults): (o: Outcome<NodeUnstageVolumeResponse>)
    ensures req.volumeId == "" ==> o == Outcome(Err(Status(InvalidArgument, VolumeIdRequired)), [], s)
    ensures req.volumeId != "" && req.stagingTargetPath == "" ==>
              o == Outcome(Err(Status(InvalidArgument, StagingTargetPathRequired)), [], s)
    ensures req.volumeId != "" && req.stagingTargetPath != "" ==>
              && o.calls == [UnmountCall(req.stagingTargetPath, 0, f.unmount)]
              && (o.result.Ok? <==> f.unmount.None?)
              && (o.result.Err? ==> o.result.error == Status(Internal, UnmountStagingFailed))
  {
    if req.volumeId == "" then Outcome(Err(Status(InvalidArgument, VolumeIdRequired)), [], s)
    else if req.stagingTargetPath == "" then Outcome(Err(Status(InvalidArgument, StagingTargetPathRequired)), [], s)
    else
      var unmount := UnmountCall(req.stagingTargetPath, 0, f.unmount);
      if f.unmount.Some? then Outcome(Err(Status(Internal, UnmountStagingFailed)), [unmount], Step(s, unmount))
      else Outcome(Ok(NodeUnstageVolumeResponse), [unmount], Step(s, unmount))
  }

  /**
   * An unstage leaves the host its call log produces; a successful one
   * leaves the staging path unmounted and every other mount as it was.
   */
  lemma UnstageUnmounts(req: NodeUnstageVolumeRequest, s: HostState, f: Faults)
    ensures var o := UnstageSteps(req, s, f);
      && Replay(s, o.calls) == o.after
      && (o.result.Ok? ==> o.after.mounted == s.mounted - {req.stagingTargetPath})
  {
    var c := UnmountCall(req.stagingTargetPath, 0, f.unmount);
    assert [c][..0] == [];
  }
}

=== FILE: strconv.dfy ===
/**
 * strconv.ParseUint(s, 8, 32) as NodeStageVolume uses it for `fileMode`,
 * and strconv.FormatUint(v, 8), its inverse.
 */
module StrConv {
  import opened Wrappers

  const MaxUint32: nat := 0xFFFF_FFFF

  predicate IsOctalDigit(c: char) {
    '0' <= c <= '7'
  }

  predicate AllOctal(s: string) {
    forall i :: 0 <= i < |s| ==> IsOctalDigit(s[i])
  }

  /** The number the octal digits `s` denote, most significant first. */
  function OctalValue(s: string): nat
    requires AllOctal(s)
  {
    if s == [] then 0
    else OctalValue(s[..|s| - 1]) * 8 + (s[|s| - 1] as int - '0' as int)
  }

  /**
   * ParseUint(s, 8, 32): with an explicit base no prefix, sign or underscore
   * is accepted, so the input must be a non-empty run of octal digits whose
   * value fits in 32 bits; anything else is a syntax or range error.
   */
  function ParseOctal32(s: string): (r: Option<nat>)
    ensures r.Some? <==> s != "" && AllOctal(s) && OctalValue(s) <= MaxUint32
    ensures r.Some? ==> r.value == OctalValue(s) && r.value <= MaxUint32
  {
    if s == "" || !AllOctal(s) then None
    else
      var v := OctalValue(s);
      if v <= MaxUint32 then Some(v) else None
  }

  function OctalDigit(d: nat): (c: char)
    requires d < 8
    ensures IsOctalDigit(c) && c as int - '0' as int == d
  {
    ('0' as int + d) as char
  }

  /** FormatUint(v, 8): the octal digits of `v` without leading zeros. */
  function FormatOctal(v: nat): (s: string)
    ensures s != "" && AllOctal(s)
  {
    if v < 8 then [OctalDigit(v)] else FormatOctal(v / 8) + [OctalDigit(v % 8)]
  }

  lemma {:induction false} FormatOctalValue(v: nat)
    ensures OctalValue(FormatOctal(v)) == v
  {
    var s := FormatOctal(v);
    if v >= 8 {
      FormatOctalValue(v / 8);
      assert s[..|s| - 1] == FormatOctal(v / 8);
    } else {
      assert s[..0] == [];
    }
  }

  /** Every 32-bit mode written in octal parses back to itself. */
  lemma ParseFormatRoundTrip(v: nat)
    requires v <= MaxUint32
    ensures ParseOctal32(FormatOctal(v)) == Some(v)
  {
    FormatOctalValue(v);
  }

  /** The mode the stage tests use, "0755", is 493; "" and "invalid" are rejected. */
  lemma StageTestModes()
    ensures ParseOctal32("0755") == Some(493)
    ensures ParseOctal32("") == None
    ensures ParseOctal32("invalid") == None
  {
    var s := "0755";
    assert AllOctal(s);
    assert s[..3] == "075" && s[..3][..2] == "07" && s[..3][..2][..1] == "0" && s[..3][..2][..1][..0] == "";
    assert OctalValue("0") == 0;
    assert OctalValue("07") == 7;
    assert OctalValue("075") == 61;
    assert OctalValue(s) == 493;
    assert !IsOctalDigit("invalid"[0]);
  }
}

=== FILE: syscall.dfy ===
/** OS-level values the node plugin sees: errors and Linux mount flags. */
module Syscall {

  /** An errno other than ENODEV (19), EPERM (1) and EACCES (13), which have their own names. */
  type OtherCode = c: nat | c != 1 && c != 13 && c != 19

  /** The errno an error wraps, as errors.Is would find it. */
  datatype Errno = NoErrno | ENODEV | EPERM | EACCES | OtherErrno(code: OtherCode)

  /** A Go `error` from the OS or a helper: the errno it wraps and its message text. */
  datatype OsError = OsError(errno: Errno, msg: string)

  // Linux mount(2) flags (uintptr in Go).
  const MS_RDONLY: bv64 := 0x1
  const MS_NOSUID: bv64 := 0x2
  const MS_NODEV: bv64 := 0x4
  const MS_NOEXEC: bv64 := 0x8
  const MS_NOATIME: bv64 := 0x400
  const MS_BIND: bv64 := 0x1000
  const MS_RELATIME: bv64 := 0x20_0000

  /**
   * The mount(2) flags the plugin passes. A flag word built by OR-ing
   * MS_* constants is modelled as the set of flags OR-ed in; Bits gives
   * the uintptr the kernel receives.
   */
  datatype MountFlag = RDONLY | NOSUID | NODEV | NOEXEC | NOATIME | RELATIME | BIND

  function FlagBit(f: MountFlag): bv64 {
    match f
    case RDONLY => MS_RDONLY
    case NOSUID => MS_NOSUID
    case NODEV => MS_NODEV
    case NOEXEC => MS_NOEXEC
    case NOATIME => MS_NOATIME
    case RELATIME => MS_RELATIME
    case BIND => MS_BIND
  }

  function BitIf(b: bool, bit: bv64): bv64 {
    if b then bit else 0
  }

  /** The flag word: the OR of the bits of the flags in `flags`. */
  function Bits(flags: set<MountFlag>): bv64 {
    BitIf(RDONLY in flags, MS_RDONLY) | BitIf(NOSUID in flags, MS_NOSUID) | BitIf(NODEV in flags, MS_NODEV)
    | BitIf(NOEXEC in flags, MS_NOEXEC) | BitIf(NOATIME in flags, MS_NOATIME)
    | BitIf(RELATIME in flags, MS_RELATIME) | BitIf(BIND in flags, MS_BIND)
  }

  /** Each flag owns one bit of the word: the bit is set exactly when the flag is in the set. */
  lemma BitsIff(flags: set<MountFlag>, f: MountFlag)
    ensures (Bits(flags) & FlagBit(f) != 0) <==> f in flags
  {
    var r, n, d, e, a, l, b := RDONLY in flags, NOSUID in flags, NODEV in flags, NOEXEC in flags,
                              NOATIME in flags, RELATIME in flags, BIND in flags;
    assert Bits(flags) == BitIf(r, 0x1) | BitIf(n, 0x2) | BitIf(d, 0x4) | BitIf(e, 0x8)
                          | BitIf(a, 0x400) | BitIf(l, 0x20_0000) | BitIf(b, 0x1000);
  }

  /** The word holds no bit besides those of its flags. */
  lemma BitsOnlyFlags(flags: set<MountFlag>)
    ensures Bits(flags) & !(MS_RDONLY | MS_NOSUID | MS_NODEV | MS_NOEXEC | MS_NOATIME | MS_RELATIME | MS_BIND) == 0
    ensures BIND !in flags ==> Bits(flags) & MS_BIND == 0
  {
    var r, n, d, e, a, l, b := RDONLY in flags, NOSUID in flags, NODEV in flags, NOEXEC in flags,
                              NOATIME in flags, RELATIME in flags, BIND in flags;
    assert Bits(flags) == BitIf(r, 0x1) | BitIf(n, 0x2) | BitIf(d, 0x4) | BitIf(e, 0x8)
                          | BitIf(a, 0x400) | BitIf(l, 0x20_0000) | BitIf(b, 0x1000);
  }
}

=== FILE: wrappers.dfy ===
/** Option and Result, the failure-carrying values every other module returns. */
module Wrappers {

  datatype Option<+T> = None | Some(value: T)

  /** A Go `(value, error)` pair: exactly one of the two is meaningful. */
  datatype Result<+T, +E> = Ok(value: T) | Err(error: E)
}
